=== FILE: README.md ===
# Gophermart loyalty ledger, modelled in Dafny

Gophermart is a loyalty-points service. Users register and log in. They upload
order numbers, and the accrual service decides how many points each order earns.
Those points are credited to the user's balance. Users then spend points by
withdrawing them against other order numbers.

This project models the core of that service as pure functions over an
immutable store, and proves its properties. The core is:

- the order-number validator, in both copies;
- the storage layer: users, balances, orders and the withdrawal log, with the
  ledger operations;
- one accrual poll;
- the status tables of the HTTP handlers, and the decisions of the middleware;
- start-up configuration.

Modules follow the program's packages:

- `Models` and `Order`: the records and the order-number validator.
- `Storage`: the tables as values, and every storage call as a function from
  store to store.
- `Ledger`: the storage calls as one state machine. `Apply`/`Run` use the
  calls as written. It proves the invariants every run keeps:
  - every user has a balance row;
  - order numbers are unique;
  - each user's withdrawn total equals the sum of that user's withdrawal log;
  - current balances never go negative, provided every credit is non-negative;
  - a credited flag is never cleared.

  `ApplyIntended`/`RunIntended` swap in the corrected credit and settle (see
  Findings). With those, no credit is added once an order is settled. The
  credit and the settle remain two steps, though, so two polls of one order
  whose credits both run before either settle still credit twice
  (`Ledger.InterleavedPollsCreditTwice`). Only a poll that checks and marks in
  one step, `Storage.PollRun`, credits each order at most once.
- `Accrual`: one accrual poll (`RequestToAccrual`).
- `Handlers`: the status tables of the HTTP handlers, and the step of the
  order listing that queues tasks and merges results.
- `Middleware`: when a request is decompressed, when a response is
  compressed, which User-ID a request carries, and how often the logging
  middleware runs the next handler.
- `Config`: defaults, environment and flag overrides, emptiness checks, and
  the "http://" normalisation.
- `Strconv`, `Strings` and `Common`: Go's `strconv.Atoi`/`Itoa` on 64-bit
  `int`, `strings.Contains`/`HasPrefix`, and `Option`/`Result`.

The effects the code depends on are inputs to the model:

- The clock is an integer `now`.
- Password hashing is an input: a `Hashed` value and a `checkHash` function.
- A cookie read is a `CookieRead` value.
- A JSON body arrives already decoded. A decode failure is its own constructor.
- A storage driver error is a boolean parameter of the handler that meets it.
  The storage operations themselves never fail.

Where the written intent and the code disagree, the model follows the code:

- The credit is meant to be added at most once per order. The gate as written
  does not look at the order (see Findings).
- The settle marks an order credited whatever status the accrual service
  reports, so a pending reply closes the order before its points are known
  (see Findings).
- A withdrawal's sum is never checked for sign (see Findings).
- Any accrual reply other than 200 or 429 is an error (`ErrNoOKfromAccrual`).
  This includes 204 and 404, which are not treated as "pending".
- A 429 reply with a numeric Retry-After returns a nil response and no error
  after the sleep (`NilResponse`).

## Model

| member | source | states |
|---|---|---|
| `Models.IsValidOrderNumber` | cmd/gophermart/models/models.go:53-60 | an order number is valid exactly when every character is a decimal digit; the empty string is valid |
| `Models.ValidConcat` | cmd/gophermart/models/models.go:53-60 | a concatenation is valid exactly when both parts are valid |
| `Models.EmptyAndDigitsAccepted` | cmd/gophermart/models/models.go:53-60 | the empty string and "12345678" are accepted |
| `Models.NoChecksum` | cmd/gophermart/models/models.go:53-60 | "79927398710", which fails the Luhn checksum, is accepted: there is no checksum |
| `Models.NonDigitRejected` | cmd/gophermart/models/models.go:53-60 | one non-digit at any position rejects the whole number |
| `Models.DigitString` | cmd/gophermart/models/models.go:53-60 | a string whose every character lies in '0'..'9' is accepted |
| `Models.ItoaValidIff` | cmd/gophermart/handlers/handlers.go:131-135 | the decimal rendering of an integer passes the validator exactly when the integer is not negative |
| `Order.IsValidOrderNumber` | cmd/gophermart/order/order.go:15-22 | the loop returns true exactly when every character is a digit, the same verdict as the models copy |
| `Strconv.Atoi` | cmd/gophermart/handlers/handlers.go:131 | parses exactly when the input is an optional sign followed by at least one digit and the signed value lies in the int64 range, and then yields that signed value; a well-formed value beyond a bound is a range error clamped to that bound; malformed input is a syntax error, or a range error only when its digit prefix already exceeds the uint64 range; empty input is a syntax error |
| `Strconv.AtoiItoa` | cmd/gophermart/handlers/handlers.go:131-132 | for every int64 value, parsing its decimal rendering gives the value back |
| `Storage.SaveLoginPassword` | cmd/gophermart/storage/storage.go:88-93 | reports success exactly when the login is in neither table; afterwards the login has a user row and a balance row; a new balance row starts at zero; existing rows, orders and the log are unchanged |
| `Storage.SaveThenGetHash` | cmd/gophermart/storage/storage.go:88-99 | after saving, a new login's hash reads back as saved; an existing login keeps its old hash |
| `Storage.GetHashedPasswordByLogin` | cmd/gophermart/storage/storage.go:95-99 | a known login reads as its stored hash; an unknown one as the empty string, the value the ignored scan error leaves |
| `Storage.UnknownLoginHasNoHash` | cmd/gophermart/storage/storage.go:95-99 | an unknown login reads as the empty hash |
| `Storage.SaveUID` | cmd/gophermart/storage/storage.go:101-104 | binds the uid to that login's row only; all other rows and tables are unchanged; an unknown login changes nothing |
| `Storage.GetLoginByUID` | cmd/gophermart/storage/storage.go:106-110 | returns a login whose row holds the uid when one exists, else the empty login |
| `Storage.SaveUIDThenLookup` | cmd/gophermart/storage/storage.go:101-110 | after binding a uid no one else holds, looking it up yields that login |
| `Storage.AddOrder` | cmd/gophermart/storage/storage.go:116-145 | a number held by another login is a conflict with no change; a number this login holds is accepted again with no change; otherwise one row with status NEW is appended |
| `Storage.AddOrderKeepsNumbersUnique` | cmd/gophermart/storage/storage.go:116-145 | uploading keeps order numbers unique, and uploading the same number twice equals uploading it once |
| `Storage.UniqueNumbersHaveOneOwner` | cmd/gophermart/storage/storage.go:116-133 | with unique numbers, an order a login owns is never owned by another login |
| `Storage.SettleRows` | cmd/gophermart/storage/storage.go:177-182 | every row with the number gets the status and the accrual, and keeps or gains the credited mark as asked; every other row is unchanged; the length is kept |
| `Storage.UpdateOrder` | cmd/gophermart/storage/storage.go:177-182 | every row with the number gets the status and the accrual and is marked credited whatever the status; every other row, the users, the balances and the log are unchanged |
| `Storage.UpdateOrderIntended` | cmd/gophermart/storage/storage.go:177-182 | the intended settle: status and accrual as reported, but a row gains the credited mark only with the status PROCESSED; every other row and table is unchanged |
| `Storage.UpdateUserBalance` | cmd/gophermart/storage/storage.go:197-225 | adds the accrual to the user's current balance when any order row of any user is uncredited; withdrawn and every other balance are unchanged |
| `Storage.UpdateUserBalanceIgnoresOrder` | cmd/gophermart/storage/storage.go:208-213 | the credit is the same for every order number, and is a no-op once every row is marked |
| `Storage.CreditOnce` | cmd/gophermart/storage/storage.go:208-213 | the intended credit: adds the accrual only while the user's own order is uncredited; nothing else changes |
| `Storage.SettleCreditsOnce` | cmd/gophermart/storage/storage.go:176-225 | with the intended credit, a second credit-then-settle of the same order leaves every balance as the first left it |
| `Storage.PollIntended` | cmd/gophermart/storage/storage.go:197-225 | the intended poll: the user's current balance grows by the accrual exactly when the status is PROCESSED and the user's order is uncredited; otherwise no balance changes; other users are untouched |
| `Storage.PendingPollKeepsOrderOpen` | cmd/gophermart/storage/storage.go:177-182 | with the intended settle, a reply with any status but PROCESSED credits nothing and leaves the user's order uncredited |
| `Storage.ProcessedPollClosesOrder` | cmd/gophermart/storage/storage.go:177-182 | with the intended settle, a PROCESSED reply leaves no uncredited row with that number |
| `Storage.PendingThenProcessedCreditsOnce` | cmd/gophermart/storage/storage.go:177-225 | a pending reply followed by PROCESSED credits exactly the PROCESSED accrual once, and any later reply credits nothing |
| `Storage.PendingPollKeepsOpenness` | cmd/gophermart/storage/storage.go:177-182 | with the intended settle, a reply other than PROCESSED neither opens nor closes the user's order |
| `Storage.PollRunCreditsOnce` | cmd/gophermart/storage/storage.go:177-225 | with check and mark in one step, any sequence of replies credits the user exactly the first PROCESSED accrual if the order was open, and nothing otherwise; other users are untouched |
| `Storage.RepollCreditsTwice` | cmd/gophermart/storage/storage.go:197-225 | as written, two polls of alice's order 1 add 10 twice while bob's order 2 is uncredited |
| `Storage.WithdrawFromUserBalance` | cmd/gophermart/storage/storage.go:230-271 | withdraws exactly when a balance row exists and current is at least the amount; then current plus withdrawn is conserved, current stays non-negative, and exactly one log entry is appended; otherwise nothing changes |
| `Storage.GetUserBalance` | cmd/gophermart/storage/storage.go:183-195 | succeeds exactly when the user has a balance row, and returns that row |
| `Storage.GetOrders` | cmd/gophermart/storage/storage.go:147-175 | lists exactly the user's orders, in both directions of membership, each stamped with the query time; the list is empty exactly when the user has none |
| `Storage.GetUserWithdrawals` | cmd/gophermart/storage/storage.go:273-298 | lists exactly the user's log entries, in both directions of membership; the list is empty exactly when the user has none; the order of the list is not stated |
| `Ledger.Apply` | cmd/gophermart/storage/storage.go:88-271 | no storage call as written removes a user or balance row, moves or renumbers an order row, clears a credited mark or rewrites the log; at most one log entry is added |
| `Ledger.ApplyKeepsValid` | cmd/gophermart/storage/storage.go:88-271 | every storage operation keeps the ledger invariant: users and balance rows align, numbers are unique, log entries belong to users, withdrawn equals the user's log total |
| `Ledger.RunKeepsValid` | cmd/gophermart/storage/storage.go:88-271 | every run of operations from a valid store ends valid |
| `Ledger.RunKeepsCurrentNonNegative` | cmd/gophermart/storage/storage.go:243-251 | with non-negative credits, current balances never go negative along any run, whatever the sign of the withdrawals, because a withdrawal needs current at least the amount |
| `Ledger.RunKeepsFlags` | cmd/gophermart/storage/storage.go:177-182 | no run moves or renumbers an existing order row or clears its credited mark |
| `Ledger.ApplyKeepsSettled` | cmd/gophermart/storage/storage.go:116-145 | no storage call as written unsettles an order; re-uploading a held number adds no row |
| `Ledger.ApplyIntended` | cmd/gophermart/storage/storage.go:177-225 | the intended calls keep every row in place with its credited mark; an intended credit touches balances only; every call but credit and settle is the one as written |
| `Ledger.ApplyIntendedKeepsValid` | cmd/gophermart/storage/storage.go:88-271 | the intended calls keep the ledger invariant too |
| `Ledger.SettledCreditIsNoop` | cmd/gophermart/storage/storage.go:208-213 | intended behaviour: with the gate keyed on the user's order, a credit for a settled order changes nothing |
| `Ledger.ApplyIntendedKeepsSettled` | cmd/gophermart/storage/storage.go:116-225 | no intended call unsettles an order |
| `Ledger.SettledNeverCreditedAgain` | cmd/gophermart/storage/storage.go:197-225 | intended behaviour: once an order is settled, every later credit for it in any intended run is a no-op (as written this fails, see Findings); credits that run before the settle are not covered |
| `Ledger.InterleavedPollsCreditTwice` | cmd/gophermart/handlers/handlers.go:320-328 | with the intended credit and settle as separate steps, two credits of alice's order 1 that both run before either settle add 10 twice |
| `Accrual.RequestToAccrual` | cmd/gophermart/handlers/handlers.go:307-343 | the reply classes map to their errors; a 429 with a numeric Retry-After returns nil, changes nothing, and requests the sleep Go computes from it, Retry-After times one second in int64 nanoseconds; a JSON null body is dereferenced; on a 200 the credit comes before the settle; the store changes only on a 200 with a body |
| `Accrual.UpdateFailureKeepsCredit` | cmd/gophermart/handlers/handlers.go:320-328 | when the order update fails, the credit already made stays and the order rows are unchanged |
| `Accrual.CreditedReply` | cmd/gophermart/handlers/handlers.go:314-329 | a 200 for an uncredited order of the user credits the accrual and settles every row with that number |
| `Accrual.ProcessedScenario` | cmd/gophermart/handlers/handlers.go:314-329 | polling order 79927398713 with PROCESSED/500 leaves it PROCESSED and credited, with the balance at 500 |
| `Accrual.RateLimitedScenario` | cmd/gophermart/handlers/handlers.go:330-337 | a 429 with Retry-After "2" requests a sleep of 2 seconds (2,000,000,000 ns) and returns nil, with no credit |
| `Accrual.WrapInt64` | cmd/gophermart/handlers/handlers.go:337 | Go's int64 arithmetic: the result lies in the int64 range, is congruent to the exact value modulo 2^64, and equals it when it fits |
| `Accrual.SleepDuration` | cmd/gophermart/handlers/handlers.go:337 | the sleep is Retry-After seconds in nanoseconds when that fits in int64 (up to 9223372036 seconds either way); beyond, it is the product wrapped modulo 2^64 |
| `Accrual.HugeRetryAfterDoesNotSleep` | cmd/gophermart/handlers/handlers.go:330-337 | a Retry-After of 10000000000 parses, but its nanosecond product wraps to -8446744073709551616, a negative duration on which Go does not sleep at all |
| `Accrual.RepollCreditsAgain` | cmd/gophermart/handlers/handlers.go:320-323 | as written, polling an already credited order credits it again while any row is uncredited |
| `Accrual.PendingPollForfeitsAccrual` | cmd/gophermart/handlers/handlers.go:314-329 | as written, a PROCESSING reply with accrual 0 marks alice's order 7 credited, so the PROCESSED reply with 500 that follows leaves her balance at 0 |
| `Handlers.HandleAuth` | cmd/gophermart/handlers/handlers.go:55-70 | 401 exactly when the stored hash is empty or does not match; 400 exactly when binding the uid fails; 200 binds the uid; only a 200 changes the store |
| `Handlers.Register` | cmd/gophermart/handlers/handlers.go:72-99 | an undecodable body or an empty field gives 400; a hash error gives 500; a taken login gives 409; a free login with a hash is inserted and the answer is then exactly that of authenticating against the new store |
| `Handlers.RegisterThenLogin` | cmd/gophermart/handlers/handlers.go:72-113 | after a successful registration, logging in with the same credentials from another session answers 200 and binds the new uid |
| `Handlers.RegisterNewUser` | cmd/gophermart/handlers/handlers.go:72-99 | registering a free login with a valid hash answers 200 and binds the uid to the new user |
| `Handlers.RegisterTakenLogin` | cmd/gophermart/handlers/handlers.go:92-96 | registering a taken login answers 409 and changes nothing |
| `Handlers.Login` | cmd/gophermart/handlers/handlers.go:101-113 | a malformed body gives 400; a well-formed one answers exactly as authentication does: an unknown login gives 401; a 200 has checked the stored hash and bound the uid |
| `Handlers.LoginWrongPassword` | cmd/gophermart/handlers/handlers.go:55-70 | a password that does not match the stored hash answers 401 and changes nothing |
| `Handlers.SubmitOrder` | cmd/gophermart/handlers/handlers.go:140-159 | 409 for another user's number, 200 for the user's own, 202 for a new one (one row added), 500 on a storage error; a task is queued exactly on 200 and 202 |
| `Handlers.OrdersUpload` | cmd/gophermart/handlers/handlers.go:115-160 | 401 without a login; 400 without text/plain; 422 exactly when the parsed value is negative; otherwise the answer is exactly submitting the value Atoi returned, even on error |
| `Handlers.OrdersUploadStrict` | cmd/gophermart/handlers/handlers.go:131-135 | the intended upload: 422 unless the body parses as an int64 without error and is not negative; otherwise the answer is exactly submitting the parsed value |
| `Handlers.NonNumericBodyAccepted` | cmd/gophermart/handlers/handlers.go:131-135 | as written, body "abc" answers 202 and stores order 0; the intended upload answers 422 |
| `Handlers.UploadTwiceIsIdempotent` | cmd/gophermart/handlers/handlers.go:140-159 | uploading the same body again after a 202 answers 200, keeps the store and queues the same poll |
| `Handlers.PollTasks` | cmd/gophermart/handlers/handlers.go:182-188 | one task per listed order, each for the user, carrying the number Atoi parses from the order: the value when it parses, 0 on a syntax error, the clamped bound on a range error |
| `Handlers.OrdersGet` | cmd/gophermart/handlers/handlers.go:162-220 | 401 without a login, 500 on a storage error, 204 exactly when the user has no orders; otherwise 200 with the user's orders and one poll task per order; no other status |
| `Handlers.TaskNumberRoundTrip` | cmd/gophermart/handlers/handlers.go:182-186 | the order number of a listed row parses back to the stored number |
| `Handlers.PolledOrdersAreOwned` | cmd/gophermart/handlers/handlers.go:182-188 | every task the listing queues polls an order the user owns |
| `Handlers.OwnedOrdersArePolled` | cmd/gophermart/handlers/handlers.go:182-188 | every order the user owns gets a task |
| `Handlers.MergeResult` | cmd/gophermart/handlers/handlers.go:194-200 | a result updates status and accrual of the first order with its number only; all else is unchanged |
| `Handlers.MergeNoMatch` | cmd/gophermart/handlers/handlers.go:194-200 | a result matching no order leaves the list unchanged, and order numbers never change |
| `Handlers.UserBalance` | cmd/gophermart/handlers/handlers.go:222-241 | 401 without a login; 200 with the stored balance exactly when the read succeeds; 500 exactly when a logged-in user's read fails or finds no balance row |
| `Handlers.RequestForWithdrawal` | cmd/gophermart/handlers/handlers.go:243-277 | 401 without a login; 422 for an undecodable body or an order that is not all digits; past those, 200 exactly when the storage works, the user has a balance row and current covers the sum, 402 exactly when current is short, 500 exactly on a storage error or a missing row; on 200 the store is exactly the storage withdrawal's: exactly the sum moves from current to withdrawn, one log entry is appended, and other balances, users and orders are unchanged; otherwise nothing changes; the sum's sign is not checked |
| `Handlers.NegativeWithdrawalAccepted` | cmd/gophermart/handlers/handlers.go:252-265 | as written, withdrawing -100 from alice's empty balance answers 200 and leaves current 100 and withdrawn -100 |
| `Handlers.RequestForWithdrawalStrict` | cmd/gophermart/handlers/handlers.go:252-265 | the intended withdrawal: 422 exactly for an undecodable body, an invalid order or a negative sum; otherwise exactly the withdrawal as written; a 200 never raises current nor lowers withdrawn |
| `Handlers.NegativeWithdrawalRefused` | cmd/gophermart/handlers/handlers.go:252-265 | the intended withdrawal answers 422 to any negative sum and changes nothing |
| `Handlers.InfoAboutWithdrawals` | cmd/gophermart/handlers/handlers.go:279-304 | 401 without a login; 500 exactly when a logged-in user's read fails; 204 exactly when the user has no log entries; 200 returns the user's log entries; no other status |
| `Handlers.WithdrawalThenBalance` | cmd/gophermart/handlers/handlers.go:222-277 | after a successful withdrawal, the balance read answers 200 with current lowered and withdrawn raised by the sum |
| `Handlers.RegisterThenBalance` | cmd/gophermart/handlers/handlers.go:72-99 | a freshly registered user's balance read answers 200 with 0 and 0 |
| `Handlers.WithdrawalThenHistory` | cmd/gophermart/handlers/handlers.go:243-304 | after a successful withdrawal, the history answers 200 and lists the new entry |
| `Middleware.GzipEncode` | cmd/gophermart/handlers/handlers_middleware.go:94-127 | compresses exactly when the request accepts gzip, has a JSON or HTML content type, and declares a Content-Length of at least 1400 |
| `Middleware.UnparsableLengthIsPlain` | cmd/gophermart/handlers/handlers_middleware.go:107-112 | a Content-Length that does not parse never leads to compression |
| `Middleware.AbsentLengthIsPlain` | cmd/gophermart/handlers/handlers_middleware.go:107-112 | an absent Content-Length never leads to compression |
| `Middleware.GzipDecode` | cmd/gophermart/handlers/handlers_middleware.go:79-92 | decompresses exactly for Content-Encoding "gzip" with a good gzip header; rejects with 400 exactly for "gzip" with a bad header |
| `Middleware.DecodeNextCalls` | cmd/gophermart/handlers/handlers_middleware.go:81-91 | the next handler runs at most once, and not at all exactly when the body is rejected |
| `Middleware.OnlyExactGzipDecodes` | cmd/gophermart/handlers/handlers_middleware.go:81-90 | any other Content-Encoding passes the body through and runs the next handler once |
| `Middleware.Authenticate` | cmd/gophermart/handlers/handlers_middleware.go:129-153 | a readable non-empty cookie uid becomes the User-ID with no new cookie; an unreadable or empty one, when the cookie can be set, gives the fresh uid as both cookie and User-ID; 500 exactly when that cookie cannot be set |
| `Middleware.UserIdNeverEmpty` | cmd/gophermart/handlers/handlers_middleware.go:133-148 | with a non-empty fresh uid, every request that proceeds carries a non-empty User-ID |
| `Middleware.LoggingNextCalls` | cmd/gophermart/handlers/handlers_middleware.go:26-77 | the next handler runs at most once, and exactly once for GET, POST and DELETE |
| `Middleware.OtherMethodsDropped` | cmd/gophermart/handlers/handlers_middleware.go:33-73 | PUT, PATCH, HEAD and OPTIONS requests never reach the next handler |
| `Config.NewConfig` | cmd/gophermart/config/config.go:20-29 | the defaults: ":8081", no database URI, ":8080", 15, 2 and 240; with no overrides they fail start-up for the missing database URI |
| `Config.NormalizeAccrualAddress` | cmd/gophermart/config/config.go:59-61 | the result starts with "http://"; an address that already starts with it is unchanged; any other address gets it prepended |
| `Config.NormalizeIdempotent` | cmd/gophermart/config/config.go:59-61 | normalising twice is normalising once |
| `Config.OtherSchemeStillPrefixed` | cmd/gophermart/config/config.go:59-61 | "https://x" becomes "http://https://x" |
| `Config.Init` | cmd/gophermart/config/config.go:31-64 | flags override the environment, which overrides the field; an empty database URI is refused first, then an empty accrual address; with both present the result carries the overridden address and URI and the normalised accrual address, and keeps timeout, workers and rate limit |
| `Config.DefaultsWithDatabase` | cmd/gophermart/config/config.go:20-64 | from the defaults with only DATABASE_URI set, the result is ":8081", the URI, "http://:8080", 15, 2 and 240; RUN_ADDRESS replaces ":8081" |
| `Config.MissingDatabaseFails` | cmd/gophermart/config/config.go:52-54 | without DATABASE_URI from either source, start-up fails with the missing-database error |

## Left out

- The accrual worker pool, its queue, the rate limiter and the goroutine in
  the order listing are concurrent code and are not modelled.
  `Handlers.PollTasks` models the tasks the listing queues, and
  `Handlers.MergeResult` models one result merged into the list.
- Two workers may poll the same order at once, because every listing
  queues a task per order. The model has no concurrency; the interleaving
  of their credit and settle steps is shown as a sequence of steps by
  `Ledger.InterleavedPollsCreditTwice`.
- The goroutine in the order listing may write a 500 to a response that has
  already been sent. That is concurrent behaviour and is not modelled.
- A 429 reply hands the worker pool a nil response with no error. The pool
  later uses that response; this is not modelled.
- Password hashing (bcrypt), uid generation and cookie signing are done by
  foreign code. They are inputs to the model.
- The handlers ignore errors from setting the cookie. They are not modelled.
- SQL and the database driver are represented by the tables as values.
  - Driver errors are boolean inputs at the handler level and in
    `Accrual.RequestToAccrual`.
  - The storage operations themselves never fail.
  - The database migrations are not part of this model. A new order row is
    taken to start with accrual 0 and the credited flag false. A new balance
    row is taken to start at 0 and 0.
- `Storage.WithdrawFromUserBalance`: the log insert runs outside the
  transaction, so a failed commit would keep the log entry without the
  balance change. Commits never fail in the model, so this is not shown.
- `Storage.GetOrders`: rows come back in table order, not sorted by upload time
  descending, so the contract states membership only. The query's own error
  test is not modelled, because driver errors are not.
- `Storage.GetUserWithdrawals`: the query sorts by processing time, newest
  first. The model returns the log in insertion order and the contract
  states membership only.
- `Storage.GetLoginByUID` is ghost, because a query that matches several
  rows picks an unspecified one. The handlers receive the resulting login
  directly, and the empty login stands for "not authenticated".
- `Models.IsValidOrderNumber` and `Order.IsValidOrderNumber` accept only
  ASCII digits. Go's `unicode.IsDigit`, used by both copies, also accepts
  other Unicode decimal digits, and the model rejects those.
- `Ledger.RunKeepsCurrentNonNegative`: assumes every credit is non-negative,
  as the accrual service reports them. The code does not check the sign of an
  accrual.
- Money is `real`. float64 rounding is not modelled.
- JSON decoding and encoding, and reading the request body, are left out.
  Bodies arrive as decoded values, and a decode failure is its own constructor.
- The gzip streams and the log output are left out. So are the
  panic-recovery middleware, routing, `main.go`, the accrual HTTP client and
  the test mocks.
- The gzip writer error branch is left out, because the level is a fixed
  valid one and that branch cannot be taken.
- Config: flag-parsing failures, which end the process in Go, and the
  printing of the settings are left out. The environment and the parsed
  flags arrive as maps.
- `Accrual.RequestToAccrual`: the sleep is returned as the duration Go
  passes to `time.Sleep`, in nanoseconds with the int64 wrap, and is not
  performed. A duration that is not positive makes Go return at once. That
  happens for a negative Retry-After, and for some values above 9223372036
  seconds, where the wrap can go negative.

## Findings

| source | as written | input that shows it | evidently intended | confidence | as-written member | corrected member |
|---|---|---|---|---|---|---|
| cmd/gophermart/storage/storage.go:208-213 | the credit joins the user's balance row with every row of the orders table, so it fires while ANY order of ANY user is uncredited, whatever the order number | alice's order 1 polled twice with accrual 10 while bob's order 2 is still NEW: alice's balance goes 0, 10, 20 | credit only while this user's order with this number is not yet marked credited, and no credit once it is settled (`Ledger.SettledNeverCreditedAgain`); at most once per order needs the check and the mark in one step (`Storage.PollRunCreditsOnce`) | not executed | `Storage.RepollCreditsTwice` | `Storage.SettleCreditsOnce` |
| cmd/gophermart/storage/storage.go:177-182 | the settle called after every 200 reply sets the credited mark whatever status the reply carries, so a pending reply (NEW, PROCESSING, REGISTERED) closes the order before its points are known | alice's order 7 polled with PROCESSING/0 then PROCESSED/500: the second poll credits nothing and her balance stays 0 | mark the order credited only with the final status PROCESSED, so the PROCESSED accrual is credited once | not executed | `Accrual.PendingPollForfeitsAccrual` | `Storage.PendingThenProcessedCreditsOnce` |
| cmd/gophermart/handlers/handlers.go:252-265 | the decoded sum goes to the withdrawal unchecked, and the balance test current >= sum passes for any negative sum | alice with balance 0/0 withdraws -100 against order "1": 200, current 100, withdrawn -100 | refuse a negative sum with 422 before touching the balance | not executed | `Handlers.NegativeWithdrawalAccepted` | `Handlers.RequestForWithdrawalStrict` |
| cmd/gophermart/handlers/handlers.go:131-135 | the Atoi error is discarded and the validator is applied to the re-rendered integer, so a body that is not a number becomes order 0, which is valid (an out-of-range body becomes the clamped bound) | body "abc" with Content-Type text/plain answers 202 and stores order 0 for the user | answer 422 whenever Atoi reports an error | not executed | `Handlers.NonNumericBodyAccepted` | `Handlers.OrdersUploadStrict` |

=== FILE: accrual.dfy ===
/**
 * What one accrual poll does (RequestToAccrual in
 * cmd/gophermart/handlers/handlers.go): the accrual service's reply is
 * classified, and on a 200 the user's balance is credited before the order
 * row is settled.  The reply arrives as a value; the sleep on 429 becomes
 * an output, the duration Go would pass to time.Sleep.
 */
module Accrual {
  import opened Storage
  import Strconv
  import Models

  /** The decoded JSON body of a 200 reply. */
  datatype Body =
    | Malformed                                 // json.Unmarshal reports an error
    | JsonNull                                  // the literal null: decodes to a nil response
    | JsonObject(response: Models.AccrualResponse)

  /** What the HTTP client hands back for GET /api/orders/{number}. */
  datatype GatewayReply =
    | TransportError
    | Reply(code: int, body: Body, retryAfter: string)

  datatype AccrualError =
    | ErrAccrualRequest
    | ErrDecode
    | ErrUpdateUserBalance
    | ErrUpdateOrder
    | ErrRetryAfter
    | ErrNoOKfromAccrual

  /** The pair (response, error) the function returns, or the nil dereference it hits. */
  datatype Outcome =
    | Response(response: Models.AccrualResponse)
    | NilResponse
    | Error(error: AccrualError)
    | NilDereference

  /** Whether each of the two storage calls fails with a driver error. */
  datatype LedgerFaults = LedgerFaults(creditFails: bool, updateFails: bool)

  const NoFaults := LedgerFaults(false, false)

  /**
   * The outcome, the store afterwards, and the requested sleep: the
   * duration in nanoseconds handed to time.Sleep, which returns at once
   * when it is not positive.
   */
  datatype Polled = Polled(outcome: Outcome, store: Store, sleepNanos: int)

  const NanosPerSecond := 1_000_000_000

  /** 2^64, the modulus of Go's int64 arithmetic. */
  const TwoTo64 := 0x1_0000_0000_0000_0000

  /** An integer reduced, as Go's int64 arithmetic does, into the int64 range modulo 2^64. */
  function WrapInt64(x: int): (r: int)
    ensures Strconv.MinInt64 <= r <= Strconv.MaxInt64
    ensures (x - r) % TwoTo64 == 0
    ensures Strconv.MinInt64 <= x <= Strconv.MaxInt64 ==> r == x
  {
    (x - Strconv.MinInt64) % TwoTo64 + Strconv.MinInt64
  }

  /**
   * time.Duration(seconds) * time.Second: the product is computed in int64
   * nanoseconds and wraps once it leaves that range.
   */
  function SleepDuration(seconds: int): (d: int)
    ensures Strconv.MinInt64 <= d <= Strconv.MaxInt64
    ensures -9223372036 <= seconds <= 9223372036 ==> d == seconds * NanosPerSecond
    ensures (seconds * NanosPerSecond - d) % TwoTo64 == 0
  {
    WrapInt64(seconds * NanosPerSecond)
  }

  function RequestToAccrual(s: Store, login: Login, n: int, reply: GatewayReply, faults: LedgerFaults): (r: Polled)
    ensures r.store != s ==> reply.Reply? && reply.code == 200 && reply.body.JsonObject? && !faults.creditFails
    ensures r.sleepNanos != 0 ==> reply.Reply? && reply.code == 429
    ensures reply.TransportError? ==> r.outcome == Error(ErrAccrualRequest)
    ensures reply.Reply? && reply.code != 200 && reply.code != 429 ==> r.outcome == Error(ErrNoOKfromAccrual)
    ensures reply.Reply? && reply.code == 429 ==>
      match Strconv.Atoi(reply.retryAfter)
      case Parsed(v) => r.outcome == NilResponse && r.store == s && r.sleepNanos == SleepDuration(v)
      case _ => r.outcome == Error(ErrRetryAfter)
    ensures reply.Reply? && reply.code == 200 && reply.body.Malformed? ==> r.outcome == Error(ErrDecode)
    ensures reply.Reply? && reply.code == 200 && reply.body.JsonNull? ==> r.outcome == NilDereference
    ensures reply.Reply? && reply.code == 200 && reply.body.JsonObject? ==>
      var a := reply.body.response;
      var credited := UpdateUserBalance(s, login, n, a.accrual);
      if faults.creditFails then r.outcome == Error(ErrUpdateUserBalance)
      else if faults.updateFails then r == Polled(Error(ErrUpdateOrder), credited, 0)
      else r == Polled(Response(a), UpdateOrder(credited, n, a.status, a.accrual), 0)
  {
    match reply
    case TransportError => Polled(Error(ErrAccrualRequest), s, 0)
    case Reply(code, body, retryAfter) =>
      if code == 200 then
        match body
        case Malformed => Polled(Error(ErrDecode), s, 0)
        case JsonNull => Polled(NilDereference, s, 0)
        case JsonObject(a) =>
          if faults.creditFails then Polled(Error(ErrUpdateUserBalance), s, 0)
          else
            var credited := UpdateUserBalance(s, login, n, a.accrual);
            if faults.updateFails then Polled(Error(ErrUpdateOrder), credited, 0)
            else Polled(Response(a), UpdateOrder(credited, n, a.status, a.accrual), 0)
      else if code == 429 then
        match Strconv.Atoi(retryAfter)
        case Parsed(seconds) => Polled(NilResponse, s, SleepDuration(seconds))
        case _ => Polled(Error(ErrRetryAfter), s, 0)
      else Polled(Error(ErrNoOKfromAccrual), s, 0)
  }

  /**
   * The balance is credited before the order is updated: when the update
   * then fails, the credit stays and the order rows are untouched.
   */
  lemma UpdateFailureKeepsCredit(s: Store, login: Login, n: int, reply: GatewayReply, faults: LedgerFaults)
    requires login in s.balances && login in s.users && AnyUncredited(s.orders)
    requires reply.Reply? && reply.code == 200 && reply.body.JsonObject?
    requires !faults.creditFails && faults.updateFails
    ensures var r := RequestToAccrual(s, login, n, reply, faults);
      r.outcome == Error(ErrUpdateOrder)
      && r.store.balances[login].current == s.balances[login].current + reply.body.response.accrual
      && r.store.orders == s.orders
  {
  }

  /**
   * A 200 reply for an order of the user that is still uncredited credits
   * the accrual once, and settles every row with that number: new status,
   * new accrual, marked credited.
   */
  lemma CreditedReply(s: Store, login: Login, n: int, a: Models.AccrualResponse)
    requires login in s.users && login in s.balances
    requires Uncredited(s.orders, n, login)
    ensures var r := RequestToAccrual(s, login, n, Reply(200, JsonObject(a), ""), NoFaults);
      && r.outcome == Response(a)
      && r.store.balances[login].current == s.balances[login].current + a.accrual
      && r.store.balances[login].withdrawn == s.balances[login].withdrawn
      && forall i :: 0 <= i < |s.orders| && s.orders[i].number == n ==>
           r.store.orders[i].status == a.status && r.store.orders[i].accrual == a.accrual && r.store.orders[i].accrualAdded
  {

  }

  /**
   * Order 79927398713 polled once with reply PROCESSED / 500: the status
   * becomes PROCESSED, the row is marked credited and the balance grows by 500.
   */
  lemma ProcessedScenario()
    ensures var s := Store(map["alice" := UserRow("h", NullUid)], map["alice" := Models.UserBalance(0.0, 0.0)],
                           [NewOrder("alice", 79927398713, 0)], []);
      var a := Models.AccrualResponse("79927398713", "PROCESSED", 500.0);
      var r := RequestToAccrual(s, "alice", 79927398713, Reply(200, JsonObject(a), ""), NoFaults);
      && r.outcome == Response(a)
      && r.store.balances["alice"].current == 500.0
      && r.store.orders[0].status == "PROCESSED" && r.store.orders[0].accrualAdded
  {

  }

  /** A 429 with "Retry-After: 2" sleeps two seconds and returns nil without an error or a credit. */
  lemma RateLimitedScenario(s: Store, login: Login, n: int)
    ensures RequestToAccrual(s, login, n, Reply(429, Malformed, "2"), NoFaults) == Polled(NilResponse, s, 2_000_000_000)
  {

  }

  /** The digits of ten billion denote ten billion; Decimal reads one digit per step. */
  lemma TenBillionDecimal()
    ensures Strconv.AllDigits("10000000000") && Strconv.Decimal("10000000000") == 10000000000
  {
    assert "10000000000"[..10] == "1000000000";
    assert "1000000000"[..9] == "100000000";
    assert "100000000"[..8] == "10000000";
    assert "10000000"[..7] == "1000000";
    assert "1000000"[..6] == "100000";
    assert "100000"[..5] == "10000";
    assert "10000"[..4] == "1000";
    assert "1000"[..3] == "100";
    assert "100"[..2] == "10";
    assert "10"[..1] == "1";
  }

  /** Ten billion seconds as a Retry-After header parses without error. */
  lemma TenBillionParses()
    ensures Strconv.Atoi("10000000000") == Strconv.Parsed(10000000000)
  {
    var digits := "10000000000";
    TenBillionDecimal();
    assert Strconv.Unsigned(digits) == digits;
    assert Strconv.IntSyntax(digits);
    assert Strconv.SignedValue(digits) == 10000000000;
  }

  /**
   * A Retry-After of ten billion seconds overflows the nanosecond product:
   * the duration wraps to a negative one, so the worker does not sleep at
   * all.
   */
  lemma HugeRetryAfterDoesNotSleep(s: Store, login: Login, n: int)
    ensures var r := RequestToAccrual(s, login, n, Reply(429, Malformed, "10000000000"), NoFaults);
      r.outcome == NilResponse && r.sleepNanos == -8446744073709551616
  {
    TenBillionParses();
    assert SleepDuration(10000000000) == -8446744073709551616;
  }


  /**
   * As written, polling an order that is already credited credits it again
   * whenever another order in the table is uncredited.
   */
  lemma RepollCreditsAgain(s: Store, login: Login, n: int, a: Models.AccrualResponse)
    requires login in s.users && login in s.balances
    requires forall i :: 0 <= i < |s.orders| && s.orders[i].number == n ==> s.orders[i].accrualAdded
    requires AnyUncredited(s.orders)
    ensures var r := RequestToAccrual(s, login, n, Reply(200, JsonObject(a), ""), NoFaults);
      r.store.balances[login].current == s.balances[login].current + a.accrual
  {
  }

  /**
   * As written, a pending reply forfeits the points: the order is marked
   * credited whatever its status, so PROCESSING with accrual 0 closes it and
   * the PROCESSED reply with 500 that follows credits nothing.
   */
  lemma PendingPollForfeitsAccrual()
    ensures var s := Store(map["alice" := UserRow("h", NullUid)], map["alice" := Models.UserBalance(0.0, 0.0)],
                           [NewOrder("alice", 7, 0)], []);
      var first := RequestToAccrual(s, "alice", 7, Reply(200, JsonObject(Models.AccrualResponse("7", "PROCESSING", 0.0)), ""), NoFaults);
      var second := RequestToAccrual(first.store, "alice", 7,
                                     Reply(200, JsonObject(Models.AccrualResponse("7", "PROCESSED", 500.0)), ""), NoFaults);
      && first.store.orders[0].accrualAdded
      && second.outcome.Response?
      && second.store.balances["alice"].current == 0.0
  {
    var s := Store(map["alice" := UserRow("h", NullUid)], map["alice" := Models.UserBalance(0.0, 0.0)],
                   [NewOrder("alice", 7, 0)], []);
    var first := RequestToAccrual(s, "alice", 7, Reply(200, JsonObject(Models.AccrualResponse("7", "PROCESSING", 0.0)), ""), NoFaults);
    assert first.store.orders[0].number == 7;
    assert !AnyUncredited(first.store.orders);
  }
}

=== FILE: common.dfy ===
/** Small datatypes and sequence searches shared by the rest of the model. */
module Common {

  datatype Option<+T> = None | Some(value: T)

  datatype Result<+T, +E> = Ok(value: T) | Err(error: E)

  /** Position of the first element satisfying `p`, or -1 when no element does. */
  function FirstIndex<T>(xs: seq<T>, p: T -> bool): (r: int)
    ensures -1 <= r < |xs|
    ensures r >= 0 ==> p(xs[r]) && forall j :: 0 <= j < r ==> !p(xs[j])
    ensures r < 0 ==> forall j :: 0 <= j < |xs| ==> !p(xs[j])
  {
    if |xs| == 0 then -1
    else if p(xs[0]) then 0
    else
      var k := FirstIndex(xs[1..], p);
      if k < 0 then -1 else k + 1
  }

  /** The elements of `xs` that satisfy `p`, in their original order. */
  function Filter<T>(xs: seq<T>, p: T -> bool): (r: seq<T>)
    ensures |r| <= |xs|
    ensures forall i :: 0 <= i < |r| ==> p(r[i])
    ensures forall i :: 0 <= i < |r| ==> r[i] in xs
    ensures forall i :: 0 <= i < |xs| && p(xs[i]) ==> xs[i] in r
  {
    if |xs| == 0 then []
    else
      assert xs == [xs[0]] + xs[1..];
      if p(xs[0]) then [xs[0]] + Filter(xs[1..], p) else Filter(xs[1..], p)
  }
}

=== FILE: config.dfy ===
/**
 * Start-up configuration (cmd/gophermart/config/config.go): defaults,
 * environment overrides, command-line flag overrides, the two emptiness
 * checks and the normalisation of the accrual address.  The environment
 * and the parsed flags arrive as maps.
 */
module Config {
  import opened Common
  import Strings

  datatype Config = Config(
    addr: string,
    dbConnection: string,
    accrualSystemAddress: string,
    timeout: int,
    numWorkers: int,
    maxRequestsPerMin: int)

  datatype ConfigError = MissingDatabaseUri | MissingAccrualAddress

  const HttpScheme := "http://"

  /**
   * The defaults before any override: listen on ":8081", the accrual
   * service on ":8080", a 15-second timeout, 2 workers, 240 requests per
   * minute, and no database URI, so the defaults alone never start.
   */
  function NewConfig(): (c: Config)
    ensures c.addr == ":8081" && c.accrualSystemAddress == ":8080" && c.dbConnection == ""
    ensures c.timeout == 15 && c.numWorkers == 2 && c.maxRequestsPerMin == 240
    ensures Init(c, map[], map[]) == Err(MissingDatabaseUri)
  {
    Config(":8081", "", ":8080", 15, 2, 240)
  }

  /** The value of `key` when present, else the current value. */
  function Override(current: string, source: map<string, string>, key: string): (r: string)
    ensures key in source ==> r == source[key]
    ensures key !in source ==> r == current
  {
    if key in source then source[key] else current
  }

  /** Prepends "http://" unless the address already starts with it. */
  function NormalizeAccrualAddress(address: string): (r: string)
    ensures Strings.HasPrefix(r, HttpScheme)
    ensures Strings.HasPrefix(address, HttpScheme) ==> r == address
    ensures !Strings.HasPrefix(address, HttpScheme) ==> r == HttpScheme + address
  {
    if Strings.HasPrefix(address, HttpScheme) then address
    else
      Strings.PrependEstablishesPrefix(HttpScheme, address);
      HttpScheme + address
  }

  /** Normalising twice is normalising once. */
  lemma NormalizeIdempotent(address: string)
    ensures NormalizeAccrualAddress(NormalizeAccrualAddress(address)) == NormalizeAccrualAddress(address)
  {
  }

  /** Any other scheme is not recognised: "https://x" becomes "http://https://x". */
  lemma OtherSchemeStillPrefixed()
    ensures NormalizeAccrualAddress("https://x") == "http://https://x"
  {
    assert "https://x"[..7] != HttpScheme by { assert "https://x"[4] != HttpScheme[4]; }
  }

  /**
   * Environment variables RUN_ADDRESS, DATABASE_URI and
   * ACCRUAL_SYSTEM_ADDRESS override the fields, then the flags -a, -d and
   * -r override them again; an empty database URI is refused first, then an
   * empty accrual address; finally the accrual address gets its scheme.
   */
  function Init(c: Config, env: map<string, string>, flags: map<string, string>): (r: Result<Config, ConfigError>)
    ensures r.Ok? ==> Strings.HasPrefix(r.value.accrualSystemAddress, HttpScheme)
    ensures r.Ok? ==> r.value.dbConnection != ""
    ensures r.Ok? ==>
      r.value.timeout == c.timeout && r.value.numWorkers == c.numWorkers && r.value.maxRequestsPerMin == c.maxRequestsPerMin
    ensures Override(Override(c.dbConnection, env, "DATABASE_URI"), flags, "d") == "" ==> r == Err(MissingDatabaseUri)
    ensures r == Err(MissingAccrualAddress) ==>
      Override(Override(c.accrualSystemAddress, env, "ACCRUAL_SYSTEM_ADDRESS"), flags, "r") == ""
    ensures r.Ok? ==> r.value.addr == Override(Override(c.addr, env, "RUN_ADDRESS"), flags, "a")
    ensures var db := Override(Override(c.dbConnection, env, "DATABASE_URI"), flags, "d");
      var accrual := Override(Override(c.accrualSystemAddress, env, "ACCRUAL_SYSTEM_ADDRESS"), flags, "r");
      && (db != "" && accrual == "" ==> r == Err(MissingAccrualAddress))
      && (db != "" && accrual != "" ==>
            r == Ok(c.(addr := Override(Override(c.addr, env, "RUN_ADDRESS"), flags, "a"),
                       dbConnection := db, accrualSystemAddress := NormalizeAccrualAddress(accrual))))
  {
    var addr := Override(Override(c.addr, env, "RUN_ADDRESS"), flags, "a");
    var db := Override(Override(c.dbConnection, env, "DATABASE_URI"), flags, "d");
    var accrual := Override(Override(c.accrualSystemAddress, env, "ACCRUAL_SYSTEM_ADDRESS"), flags, "r");
    if db == "" then Err(MissingDatabaseUri)
    else if accrual == "" then Err(MissingAccrualAddress)
    else Ok(c.(addr := addr, dbConnection := db, accrualSystemAddress := NormalizeAccrualAddress(accrual)))
  }

  /**
   * Starting from the defaults with no flags: a DATABASE_URI alone is enough,
   * the default accrual address ":8080" becomes "http://:8080", and a
   * present RUN_ADDRESS replaces ":8081".
   */
  lemma DefaultsWithDatabase(uri: string, run: string)
    requires uri != ""
    ensures Init(NewConfig(), map["DATABASE_URI" := uri], map[]) ==
      Ok(Config(":8081", uri, "http://:8080", 15, 2, 240))
    ensures Init(NewConfig(), map["DATABASE_URI" := uri, "RUN_ADDRESS" := run], map[]).value.addr == run
  {
    assert !Strings.HasPrefix(":8080", HttpScheme) by { assert |":8080"| < |HttpScheme|; }
    assert HttpScheme + ":8080" == "http://:8080";
  }

  /** Without a database URI anywhere, start-up fails, whatever the accrual address. */
  lemma MissingDatabaseFails(env: map<string, string>)
    requires "DATABASE_URI" !in env
    ensures Init(NewConfig(), env, map[]) == Err(MissingDatabaseUri)
  {
  }
}

=== FILE: handlers.dfy ===
/**
 * The status-code decisions of the HTTP handlers in
 * cmd/gophermart/handlers/handlers.go, each as a function of the store and
 * of the request's abstract inputs: the login the session lookup found
 * ("" for none), the Content-Type header, the decoded body, and whether a
 * storage call failed with a driver error.  Password hashing and hash
 * checking are inputs too.  Cookie refreshes are not modelled (their
 * errors are ignored by every handler).
 */
module Handlers {
  import opened Common
  import Storage
  import Strconv
  import Strings
  import Models

  const StatusOK := 200
  const StatusAccepted := 202
  const StatusNoContent := 204
  const StatusBadRequest := 400
  const StatusUnauthorized := 401
  const StatusPaymentRequired := 402
  const StatusConflict := 409
  const StatusUnprocessableEntity := 422
  const StatusInternalServerError := 500

  /* ------------------------------------------------------- authentication */

  /** The login/password JSON body, or a body that does not decode. */
  datatype Credentials = Undecodable | Credentials(login: string, password: string)

  /** Result of hashing the password: the hash, or the hasher's error. */
  datatype Hashed = Hashed(hash: string) | HashError

  predicate WellFormed(body: Credentials)
  {
    body.Credentials? && body.login != "" && body.password != ""
  }

  /**
   * Shared tail of Register and Login: a missing hash or a password that
   * does not match is 401; otherwise the session uid is bound to the login,
   * and a failure to store it is 400.
   */
  function HandleAuth(s: Storage.Store, uid: string, login: string, password: string,
                      checkHash: (string, string) -> bool, saveUidFails: bool): (r: Storage.Step<int>)
    ensures r.value == StatusOK || r.value == StatusBadRequest || r.value == StatusUnauthorized
    ensures r.value == StatusUnauthorized <==>
      login !in s.users || s.users[login].password == "" || !checkHash(password, s.users[login].password)
    ensures r.value == StatusBadRequest <==> r.value != StatusUnauthorized && saveUidFails
    ensures r.value == StatusOK ==> login in s.users && login in r.store.users && r.store.users[login].uid == Storage.Uid(uid)
    ensures r.value == StatusOK ==> r.store == Storage.SaveUID(s, uid, login)
    ensures r.value != StatusOK ==> r.store == s
  {
    var stored := Storage.GetHashedPasswordByLogin(s, login);
    if stored == "" || !checkHash(password, stored) then Storage.Step(StatusUnauthorized, s)
    else if saveUidFails then Storage.Step(StatusBadRequest, s)
    else Storage.Step(StatusOK, Storage.SaveUID(s, uid, login))
  }

  /**
   * Registration: a malformed body or an empty field is 400, a hashing
   * error 500, a taken login 409; otherwise the new user is logged in.
   */
  function Register(s: Storage.Store, uid: string, body: Credentials, hash: Hashed,
                    checkHash: (string, string) -> bool, saveUidFails: bool): (r: Storage.Step<int>)
    ensures !WellFormed(body) ==> r == Storage.Step(StatusBadRequest, s)
    ensures WellFormed(body) && hash.HashError? ==> r == Storage.Step(StatusInternalServerError, s)
    ensures WellFormed(body) && hash.Hashed? ==>
      (r.value == StatusConflict <==> body.login in s.users || body.login in s.balances)
    ensures r.value == StatusConflict ==>
      hash.Hashed? && r.store == Storage.SaveLoginPassword(s, body.login, hash.hash).store
    ensures r.value == StatusOK ==>
      && WellFormed(body) && hash.Hashed? && body.login !in s.users && body.login in r.store.users
      && r.store.users[body.login] == Storage.UserRow(hash.hash, Storage.Uid(uid))
    ensures WellFormed(body) && hash.Hashed? && body.login !in s.users && body.login !in s.balances ==>
      r == HandleAuth(Storage.SaveLoginPassword(s, body.login, hash.hash).store, uid, body.login, body.password,
                      checkHash, saveUidFails)
  {
    if !WellFormed(body) then Storage.Step(StatusBadRequest, s)
    else match hash
      case HashError => Storage.Step(StatusInternalServerError, s)
      case Hashed(h) =>
        var saved := Storage.SaveLoginPassword(s, body.login, h);
        if !saved.value then Storage.Step(StatusConflict, saved.store)
        else HandleAuth(saved.store, uid, body.login, body.password, checkHash, saveUidFails)
  }

  /**
   * A fresh login whose hash checks against its password is registered and
   * logged in: the uid then finds the login again.
   */
  lemma RegisterNewUser(s: Storage.Store, uid: string, login: string, password: string, h: string,
                        checkHash: (string, string) -> bool)
    requires login != "" && password != "" && h != "" && checkHash(password, h)
    requires login !in s.users && login !in s.balances
    requires forall l :: l in s.users ==> s.users[l].uid != Storage.Uid(uid)
    ensures var r := Register(s, uid, Credentials(login, password), Hashed(h), checkHash, false);
      r.value == StatusOK && Storage.GetLoginByUID(r.store, uid) == login
  {
    var saved := Storage.SaveLoginPassword(s, login, h).store;
    Storage.SaveUIDThenLookup(saved, uid, login);
  }

  /** When every user has a balance row, registering a taken login is 409 and changes nothing. */
  lemma RegisterTakenLogin(s: Storage.Store, uid: string, body: Credentials, h: string,
                           checkHash: (string, string) -> bool, saveUidFails: bool)
    requires s.users.Keys == s.balances.Keys
    requires WellFormed(body) && body.login in s.users
    ensures Register(s, uid, body, Hashed(h), checkHash, saveUidFails) == Storage.Step(StatusConflict, s)
  {
  }

  /** Login: a malformed body or an empty field is 400, everything else is decided by HandleAuth. */
  function Login(s: Storage.Store, uid: string, body: Credentials,
                 checkHash: (string, string) -> bool, saveUidFails: bool): (r: Storage.Step<int>)
    ensures !WellFormed(body) ==> r == Storage.Step(StatusBadRequest, s)
    ensures r.value == StatusOK ==>
      && WellFormed(body) && body.login in s.users
      && checkHash(body.password, s.users[body.login].password)
      && body.login in r.store.users && r.store.users[body.login].uid == Storage.Uid(uid)
    ensures WellFormed(body) && body.login !in s.users ==> r == Storage.Step(StatusUnauthorized, s)
    ensures WellFormed(body) ==> r == HandleAuth(s, uid, body.login, body.password, checkHash, saveUidFails)
  {
    if !WellFormed(body) then Storage.Step(StatusBadRequest, s)
    else HandleAuth(s, uid, body.login, body.password, checkHash, saveUidFails)
  }

  /**
   * A user who registered can log in again with the same credentials from
   * another session: the second session's uid is then bound to the login.
   */
  lemma RegisterThenLogin(s: Storage.Store, uid: string, uid2: string, login: string, password: string, h: string,
                          checkHash: (string, string) -> bool)
    requires Register(s, uid, Credentials(login, password), Hashed(h), checkHash, false).value == StatusOK
    ensures var registered := Register(s, uid, Credentials(login, password), Hashed(h), checkHash, false).store;
      var r := Login(registered, uid2, Credentials(login, password), checkHash, false);
      r.value == StatusOK && r.store.users[login].uid == Storage.Uid(uid2)
  {
    var registered := Register(s, uid, Credentials(login, password), Hashed(h), checkHash, false).store;
    var saved := Storage.SaveLoginPassword(s, login, h).store;
    assert saved.users[login].password == h;
    assert registered.users[login].password == h;
  }

  /** A password that does not match the stored hash is 401, and nothing changes. */
  lemma LoginWrongPassword(s: Storage.Store, uid: string, login: string, password: string,
                           checkHash: (string, string) -> bool, saveUidFails: bool)
    requires login != "" && password != "" && login in s.users
    requires !checkHash(password, s.users[login].password)
    ensures Login(s, uid, Credentials(login, password), checkHash, saveUidFails) == Storage.Step(StatusUnauthorized, s)
  {
  }

  /* --------------------------------------------------------------- orders */

  /** A unit of polling work: ask the accrual service about one order on behalf of one user. */
  datatype Task = Task(login: string, orderNumber: int)

  /** Status, the store afterwards, and the poll task enqueued, if any. */
  datatype Upload = Upload(status: int, store: Storage.Store, queued: Option<Task>)

  /** Stores the number for the user and enqueues a poll, as both upload variants end. */
  function SubmitOrder(s: Storage.Store, login: string, n: int, now: int, addOrderFails: bool): (r: Upload)
    ensures r.queued.Some? <==> r.status == StatusOK || r.status == StatusAccepted
    ensures r.queued.Some? ==> r.queued.value == Task(login, n)
    ensures r.status == StatusInternalServerError <==> addOrderFails
    ensures r.status == StatusConflict ==> r.store == s && Storage.OwnedByOther(s.orders, n, login)
    ensures r.status == StatusOK ==> r.store == s && Storage.OwnedBy(s.orders, n, login)
    ensures r.status == StatusAccepted ==>
      && !Storage.OwnedBy(s.orders, n, login) && !Storage.OwnedByOther(s.orders, n, login)
      && r.store == s.(orders := s.orders + [Storage.NewOrder(login, n, now)])
    ensures r.status != StatusAccepted ==> r.store == s
    ensures r.status in {StatusOK, StatusAccepted, StatusConflict, StatusInternalServerError}
  {
    if addOrderFails then Upload(StatusInternalServerError, s, None)
    else
      var added := Storage.AddOrder(s, login, n, now);
      match added.value
      case Conflict => Upload(StatusConflict, s, None)
      case Added => Upload(StatusAccepted, added.store, Some(Task(login, n)))
      case AlreadyUploaded => Upload(StatusOK, added.store, Some(Task(login, n)))
  }

  /**
   * Order upload as written: the body goes through Atoi with its error
   * ignored, and the check is applied to the Itoa of the result, so only a
   * negative value is refused; a body that does not parse becomes order 0.
   */
  function OrdersUpload(s: Storage.Store, login: string, contentType: string, body: string,
                        now: int, addOrderFails: bool): (r: Upload)
    ensures r.status == StatusUnauthorized <==> login == ""
    ensures r.status == StatusBadRequest <==> login != "" && !Strings.Contains(contentType, "text/plain")
    ensures r.status == StatusUnprocessableEntity <==>
      login != "" && Strings.Contains(contentType, "text/plain") && Strconv.Atoi(body).Value() < 0
    ensures r.queued.Some? <==> r.status == StatusOK || r.status == StatusAccepted
    ensures r.queued.Some? ==> r.queued.value == Task(login, Strconv.Atoi(body).Value())
    ensures r.status == StatusAccepted ==>
      r.store.orders == s.orders + [Storage.NewOrder(login, Strconv.Atoi(body).Value(), now)]
    ensures r.status != StatusAccepted ==> r.store == s
    ensures login != "" && Strings.Contains(contentType, "text/plain") && Strconv.Atoi(body).Value() >= 0 ==>
      r == SubmitOrder(s, login, Strconv.Atoi(body).Value(), now, addOrderFails)
  {
    if login == "" then Upload(StatusUnauthorized, s, None)
    else if !Strings.Contains(contentType, "text/plain") then Upload(StatusBadRequest, s, None)
    else
      var n := Strconv.Atoi(body).Value();
      assert Models.IsValidOrderNumber(Strconv.Itoa(n)) <==> n >= 0 by { Models.ItoaValidIff(n); }
      if !Models.IsValidOrderNumber(Strconv.Itoa(n)) then Upload(StatusUnprocessableEntity, s, None)
      else SubmitOrder(s, login, n, now, addOrderFails)
  }

  /**
   * The upload with the parse error honoured: a body that is not an int, or
   * is negative, is refused with 422.
   */
  function OrdersUploadStrict(s: Storage.Store, login: string, contentType: string, body: string,
                              now: int, addOrderFails: bool): (r: Upload)
    ensures r.status == StatusUnauthorized <==> login == ""
    ensures r.status == StatusBadRequest <==> login != "" && !Strings.Contains(contentType, "text/plain")
    ensures r.status == StatusUnprocessableEntity <==>
      login != "" && Strings.Contains(contentType, "text/plain")
      && !(Strconv.Atoi(body).Parsed? && Strconv.Atoi(body).value >= 0)
    ensures r.queued.Some? ==>
      Strconv.Atoi(body).Parsed? && Strconv.Atoi(body).value >= 0
      && r.queued.value == Task(login, Strconv.Atoi(body).value)
    ensures r.status != StatusAccepted ==> r.store == s
    ensures login != "" && Strings.Contains(contentType, "text/plain")
            && Strconv.Atoi(body).Parsed? && Strconv.Atoi(body).value >= 0 ==>
      r == SubmitOrder(s, login, Strconv.Atoi(body).value, now, addOrderFails)
  {
    if login == "" then Upload(StatusUnauthorized, s, None)
    else if !Strings.Contains(contentType, "text/plain") then Upload(StatusBadRequest, s, None)
    else
      var parsed := Strconv.Atoi(body);
      assert parsed.Parsed? ==> (Models.IsValidOrderNumber(Strconv.Itoa(parsed.value)) <==> parsed.value >= 0) by {
        if parsed.Parsed? { Models.ItoaValidIff(parsed.value); }
      }
      if !parsed.Parsed? || !Models.IsValidOrderNumber(Strconv.Itoa(parsed.value)) then
        Upload(StatusUnprocessableEntity, s, None)
      else SubmitOrder(s, login, parsed.value, now, addOrderFails)
  }

  /**
   * The body "abc" is not a number, yet the upload as written answers 202
   * and stores order 0; the corrected upload answers 422.
   */
  lemma NonNumericBodyAccepted()
    ensures var s := Storage.Store(map["alice" := Storage.UserRow("h", Storage.Uid("u"))],
                                   map["alice" := Models.UserBalance(0.0, 0.0)], [], []);
      && OrdersUpload(s, "alice", "text/plain", "abc", 7, false).status == StatusAccepted
      && OrdersUpload(s, "alice", "text/plain", "abc", 7, false).store.orders == [Storage.NewOrder("alice", 0, 7)]
      && OrdersUploadStrict(s, "alice", "text/plain", "abc", 7, false).status == StatusUnprocessableEntity
  {
    Strings.PrefixIsContained("text/plain", "text/plain");
    assert Strconv.DigitPrefix("abc") == 0;
    assert Strconv.Atoi("abc") == Strconv.SyntaxError;
    Models.ItoaValidIff(0);
  }

  /**
   * Uploading the same body twice: when the first upload is accepted as new
   * (202), the second answers 200, leaves the store as the first left it,
   * and queues the same poll again.
   */
  lemma UploadTwiceIsIdempotent(s: Storage.Store, login: string, body: string, now: int, now2: int)
    requires OrdersUpload(s, login, "text/plain", body, now, false).status == StatusAccepted
    ensures var first := OrdersUpload(s, login, "text/plain", body, now, false);
      var second := OrdersUpload(first.store, login, "text/plain", body, now2, false);
      second.status == StatusOK && second.store == first.store && second.queued == first.queued
  {
    var n := Strconv.Atoi(body).Value();
    var first := OrdersUpload(s, login, "text/plain", body, now, false);
    var rows := first.store.orders;
    assert rows[|rows| - 1].number == n && rows[|rows| - 1].login == login;
    assert Storage.OwnedBy(rows, n, login);
    assert !Storage.OwnedByOther(rows, n, login) by {
      assert !Storage.OwnedByOther(s.orders, n, login);
      assert forall i :: 0 <= i < |s.orders| ==> rows[i] == s.orders[i];
    }
  }

  /** Status, the list returned, and the poll tasks enqueued. */
  datatype OrderList = OrderList(status: int, orders: seq<Models.Order>, tasks: seq<Task>)

  /** One poll task per listed order, the number read back with Atoi. */
  function PollTasks(login: string, orders: seq<Models.Order>): (r: seq<Task>)
    ensures |r| == |orders|
    ensures forall i :: 0 <= i < |r| ==> r[i].login == login
    ensures forall i :: 0 <= i < |r| && Strconv.Atoi(orders[i].number).Parsed? ==>
      r[i].orderNumber == Strconv.Atoi(orders[i].number).value
    ensures forall i :: 0 <= i < |r| && Strconv.Atoi(orders[i].number).SyntaxError? ==> r[i].orderNumber == 0
    ensures forall i :: 0 <= i < |r| && Strconv.Atoi(orders[i].number).RangeError? ==>
      r[i].orderNumber == Strconv.Atoi(orders[i].number).clamped
  {
    seq(|orders|, i requires 0 <= i < |orders| => Task(login, Strconv.Atoi(orders[i].number).Value()))
  }

  /**
   * Listing orders: 401 without a login, 500 on a storage error, 204 when
   * the user has none; otherwise 200 with the list, after one poll per order
   * has been enqueued.
   */
  function OrdersGet(s: Storage.Store, login: string, now: int, getOrdersFails: bool): (r: OrderList)
    ensures r.status == StatusUnauthorized <==> login == ""
    ensures r.status == StatusInternalServerError <==> login != "" && getOrdersFails
    ensures r.status == StatusNoContent <==>
      login != "" && !getOrdersFails && forall i :: 0 <= i < |s.orders| ==> s.orders[i].login != login
    ensures r.status != StatusOK ==> r.orders == [] && r.tasks == []
    ensures r.status == StatusOK ==>
      && |r.tasks| == |r.orders| > 0
      && r.orders == Storage.GetOrders(s, login, now)
      && r.tasks == PollTasks(login, r.orders)
    ensures r.status in {StatusOK, StatusNoContent, StatusUnauthorized, StatusInternalServerError}
  {
    if login == "" then OrderList(StatusUnauthorized, [], [])
    else if getOrdersFails then OrderList(StatusInternalServerError, [], [])
    else
      var orders := Storage.GetOrders(s, login, now);
      if |orders| == 0 then OrderList(StatusNoContent, [], [])
      else OrderList(StatusOK, orders, PollTasks(login, orders))
  }

  /** The task for a listed order names the number of the row it was listed from. */
  lemma TaskNumberRoundTrip(login: string, row: Storage.OrderRow, now: int)
    requires Strconv.MinInt64 <= row.number <= Strconv.MaxInt64
    ensures Strconv.Atoi(Storage.OrderView(row, now).number).Value() == row.number
  {
    Strconv.AtoiItoa(row.number);
  }

  ghost predicate NumbersInRange(s: Storage.Store)
  {
    forall i :: 0 <= i < |s.orders| ==> Strconv.MinInt64 <= s.orders[i].number <= Strconv.MaxInt64
  }

  /** Every poll enqueued by a listing names an order number the user owns. */
  lemma PolledOrdersAreOwned(s: Storage.Store, login: string, now: int, tasks: seq<Task>)
    requires NumbersInRange(s)
    requires tasks == PollTasks(login, Storage.GetOrders(s, login, now))
    ensures forall k :: 0 <= k < |tasks| ==>
      exists i :: 0 <= i < |s.orders| && s.orders[i].login == login && tasks[k] == Task(login, s.orders[i].number)
  {
    var orders := Storage.GetOrders(s, login, now);
    forall k | 0 <= k < |tasks|
      ensures exists i :: 0 <= i < |s.orders| && s.orders[i].login == login && tasks[k] == Task(login, s.orders[i].number)
    {
      var i :| 0 <= i < |s.orders| && s.orders[i].login == login && orders[k] == Storage.OrderView(s.orders[i], now);
      TaskNumberRoundTrip(login, s.orders[i], now);
    }
  }

  /** Every order the user owns gets a poll when the list is read. */
  lemma OwnedOrdersArePolled(s: Storage.Store, login: string, now: int, tasks: seq<Task>)
    requires NumbersInRange(s)
    requires tasks == PollTasks(login, Storage.GetOrders(s, login, now))
    ensures forall i :: 0 <= i < |s.orders| && s.orders[i].login == login ==> Task(login, s.orders[i].number) in tasks
  {
    var orders := Storage.GetOrders(s, login, now);
    forall i | 0 <= i < |s.orders| && s.orders[i].login == login
      ensures Task(login, s.orders[i].number) in tasks
    {
      var k :| 0 <= k < |orders| && orders[k] == Storage.OrderView(s.orders[i], now);
      TaskNumberRoundTrip(login, s.orders[i], now);
      assert tasks[k] == Task(login, s.orders[i].number);
    }
  }

  /** Position `j` holds the first order whose number is `number`. */
  predicate FirstWithNumber(orders: seq<Models.Order>, j: int, number: string)
    requires 0 <= j < |orders|
  {
    orders[j].number == number && forall k :: 0 <= k < j ==> orders[k].number != number
  }

  /**
   * Folding one accrual result into the list being returned: the first
   * order with the result's number takes its status and accrual.
   */
  function MergeResult(orders: seq<Models.Order>, result: Models.AccrualResponse): (r: seq<Models.Order>)
    ensures |r| == |orders|
    ensures forall j :: 0 <= j < |orders| ==>
      r[j] == if FirstWithNumber(orders, j, result.order)
              then orders[j].(status := result.status, accrual := result.accrual)
              else orders[j]
  {
    var i := FirstIndex(orders, (o: Models.Order) => o.number == result.order);
    if i < 0 then orders
    else orders[i := orders[i].(status := result.status, accrual := result.accrual)]
  }

  /** A result whose number is not in the list leaves the list as it was; a merge never renumbers. */
  lemma MergeNoMatch(orders: seq<Models.Order>, result: Models.AccrualResponse)
    ensures (forall j :: 0 <= j < |orders| ==> orders[j].number != result.order) ==> MergeResult(orders, result) == orders
    ensures forall j :: 0 <= j < |orders| ==>
      MergeResult(orders, result)[j].number == orders[j].number
      && MergeResult(orders, result)[j].uploadedAt == orders[j].uploadedAt
  {
  }

  /* ------------------------------------------------------------- balances */

  datatype BalanceReply = BalanceReply(status: int, balance: Option<Models.UserBalance>)

  /** Reading the balance: 401 without a login, 500 on a storage error or a missing row. */
  function UserBalance(s: Storage.Store, login: string, getBalanceFails: bool): (r: BalanceReply)
    ensures r.status == StatusUnauthorized <==> login == ""
    ensures r.status == StatusOK <==> login != "" && !getBalanceFails && login in s.balances
    ensures r.balance.Some? <==> r.status == StatusOK
    ensures r.status == StatusOK ==> r.balance.value == s.balances[login]
    ensures r.status == StatusInternalServerError <==> login != "" && (getBalanceFails || login !in s.balances)
  {
    if login == "" then BalanceReply(StatusUnauthorized, None)
    else if getBalanceFails then BalanceReply(StatusInternalServerError, None)
    else match Storage.GetUserBalance(s, login)
      case Ok(b) => BalanceReply(StatusOK, Some(b))
      case Err(_) => BalanceReply(StatusInternalServerError, None)
  }

  /** The withdrawal JSON body, or a body that does not decode. */
  datatype WithdrawBody = UndecodableRequest | WithdrawBody(request: Models.WithdrawRequest)

  /**
   * Withdrawal: 401 without a login, 422 for an undecodable body or an
   * order that is not all digits, 402 for insufficient funds, 500 for any
   * other storage error, 200 once the amount has moved.
   */
  function RequestForWithdrawal(s: Storage.Store, login: string, body: WithdrawBody, now: int,
                                withdrawFails: bool): (r: Storage.Step<int>)
    ensures r.value == StatusUnauthorized <==> login == ""
    ensures r.value == StatusUnprocessableEntity <==>
      login != "" && (body.UndecodableRequest? || !Models.IsValidOrderNumber(body.request.order))
    ensures r.value == StatusPaymentRequired ==>
      body.WithdrawBody? && login in s.balances && s.balances[login].current < body.request.sum
    ensures r.value != StatusOK ==> r.store == s
    ensures r.value == StatusOK ==>
      && body.WithdrawBody? && login in s.balances && login in r.store.balances
      && r.store.balances[login].current + r.store.balances[login].withdrawn
         == s.balances[login].current + s.balances[login].withdrawn
      && r.store.balances[login].current >= 0.0
      && r.store.withdrawals == s.withdrawals
           + [Storage.WithdrawalRow(login, Strconv.Atoi(body.request.order).Value(), body.request.sum, now)]
    ensures r.value == StatusOK ==>
      && r.store == Storage.WithdrawFromUserBalance(s, login, Strconv.Atoi(body.request.order).Value(), body.request.sum, now).store
      && r.store.balances[login] == Models.UserBalance(s.balances[login].current - body.request.sum,
                                                       s.balances[login].withdrawn + body.request.sum)
      && (forall l :: l in s.balances && l != login ==> r.store.balances[l] == s.balances[l])
      && r.store.users == s.users && r.store.orders == s.orders
    ensures r.value in {StatusOK, StatusUnauthorized, StatusUnprocessableEntity, StatusPaymentRequired, StatusInternalServerError}
    ensures login != "" && body.WithdrawBody? && Models.IsValidOrderNumber(body.request.order) ==>
      && (r.value == StatusOK <==>
            !withdrawFails && login in s.balances && body.request.sum <= s.balances[login].current)
      && (r.value == StatusPaymentRequired <==>
            !withdrawFails && login in s.balances && s.balances[login].current < body.request.sum)
      && (r.value == StatusInternalServerError <==> withdrawFails || login !in s.balances)
  {
    if login == "" then Storage.Step(StatusUnauthorized, s)
    else match body
      case UndecodableRequest => Storage.Step(StatusUnprocessableEntity, s)
      case WithdrawBody(request) =>
        if !Models.IsValidOrderNumber(request.order) then Storage.Step(StatusUnprocessableEntity, s)
        else if withdrawFails then Storage.Step(StatusInternalServerError, s)
        else
          var n := Strconv.Atoi(request.order).Value();
          var w := Storage.WithdrawFromUserBalance(s, login, n, request.sum, now);
          match w.value
          case Withdrawn => Storage.Step(StatusOK, w.store)
          case InsufficientFunds => Storage.Step(StatusPaymentRequired, s)
          case NoBalanceRow => Storage.Step(StatusInternalServerError, s)
  }

  /** Status and the history returned. */
  datatype WithdrawalList = WithdrawalList(status: int, withdrawals: seq<Models.Withdrawal>)

  /** Withdrawal history: 401 without a login, 500 on a storage error, 204 when empty. */
  function InfoAboutWithdrawals(s: Storage.Store, login: string, getWithdrawalsFails: bool): (r: WithdrawalList)
    ensures r.status == StatusUnauthorized <==> login == ""
    ensures r.status == StatusNoContent <==>
      login != "" && !getWithdrawalsFails && forall i :: 0 <= i < |s.withdrawals| ==> s.withdrawals[i].login != login
    ensures r.status == StatusOK ==> r.withdrawals == Storage.GetUserWithdrawals(s, login) && |r.withdrawals| > 0
    ensures r.status != StatusOK ==> r.withdrawals == []
    ensures r.status == StatusInternalServerError <==> login != "" && getWithdrawalsFails
    ensures r.status in {StatusOK, StatusNoContent, StatusUnauthorized, StatusInternalServerError}
  {
    if login == "" then WithdrawalList(StatusUnauthorized, [])
    else if getWithdrawalsFails then WithdrawalList(StatusInternalServerError, [])
    else
      var ws := Storage.GetUserWithdrawals(s, login);
      if |ws| == 0 then WithdrawalList(StatusNoContent, [])
      else WithdrawalList(StatusOK, ws)
  }

  /**
   * A successful withdrawal shows up in the user's history: the history
   * answers 200 and lists the new entry.
   */
  lemma WithdrawalThenHistory(s: Storage.Store, login: string, request: Models.WithdrawRequest, now: int)
    requires RequestForWithdrawal(s, login, WithdrawBody(request), now, false).value == StatusOK
    ensures var after := RequestForWithdrawal(s, login, WithdrawBody(request), now, false).store;
      var h := InfoAboutWithdrawals(after, login, false);
      && h.status == StatusOK
      && Storage.WithdrawalView(Storage.WithdrawalRow(login, Strconv.Atoi(request.order).Value(), request.sum, now))
         in h.withdrawals
  {
    var after := RequestForWithdrawal(s, login, WithdrawBody(request), now, false).store;
    var k := |s.withdrawals|;
    assert after.withdrawals[k].login == login;
  }

  /**
   * A successful withdrawal shows up in the balance: the balance read
   * answers 200 with the sum moved from current to withdrawn.
   */
  lemma WithdrawalThenBalance(s: Storage.Store, login: string, request: Models.WithdrawRequest, now: int)
    requires RequestForWithdrawal(s, login, WithdrawBody(request), now, false).value == StatusOK
    ensures var after := RequestForWithdrawal(s, login, WithdrawBody(request), now, false).store;
      UserBalance(after, login, false) == BalanceReply(StatusOK, Some(Models.UserBalance(
        s.balances[login].current - request.sum, s.balances[login].withdrawn + request.sum)))
  {
  }

  /** A freshly registered user reads a zero balance. */
  lemma RegisterThenBalance(s: Storage.Store, uid: string, login: string, password: string, h: string,
                            checkHash: (string, string) -> bool)
    requires Register(s, uid, Credentials(login, password), Hashed(h), checkHash, false).value == StatusOK
    ensures var after := Register(s, uid, Credentials(login, password), Hashed(h), checkHash, false).store;
      UserBalance(after, login, false) == BalanceReply(StatusOK, Some(Models.UserBalance(0.0, 0.0)))
  {
  }

  /**
   * As written, nothing checks the sign of the sum: withdrawing -100 from an
   * empty balance answers 200, raises current to 100 and drives withdrawn
   * to -100.
   */
  lemma NegativeWithdrawalAccepted()
    ensures var s := Storage.Store(map["alice" := Storage.UserRow("h", Storage.Uid("u"))],
                                   map["alice" := Models.UserBalance(0.0, 0.0)], [], []);
      var r := RequestForWithdrawal(s, "alice", WithdrawBody(Models.WithdrawRequest("1", -100.0)), 5, false);
      && r.value == StatusOK
      && r.store.balances["alice"] == Models.UserBalance(100.0, -100.0)
  {
    Models.DigitString("1");
  }

  /**
   * Withdrawal as intended: as written, except that a negative sum is
   * refused with 422 before the ledger is touched.  A withdrawal then never
   * raises the current balance nor lowers the withdrawn total.
   */
  function RequestForWithdrawalStrict(s: Storage.Store, login: string, body: WithdrawBody, now: int,
                                      withdrawFails: bool): (r: Storage.Step<int>)
    ensures r.value == StatusUnprocessableEntity <==>
      login != "" && (body.UndecodableRequest? || !Models.IsValidOrderNumber(body.request.order) || body.request.sum < 0.0)
    ensures r.value != StatusUnprocessableEntity ==> r == RequestForWithdrawal(s, login, body, now, withdrawFails)
    ensures r.value == StatusOK ==>
      && body.WithdrawBody? && login in s.balances && login in r.store.balances
      && r.store.balances[login].current <= s.balances[login].current
      && r.store.balances[login].withdrawn >= s.balances[login].withdrawn
    ensures r.value != StatusOK ==> r.store == s
  {
    if login != "" && body.WithdrawBody? && Models.IsValidOrderNumber(body.request.order) && body.request.sum < 0.0
    then Storage.Step(StatusUnprocessableEntity, s)
    else RequestForWithdrawal(s, login, body, now, withdrawFails)
  }

  /** The corrected handler refuses the negative withdrawal of the as-written example. */
  lemma NegativeWithdrawalRefused(s: Storage.Store, login: string, order: string, sum: real, now: int, withdrawFails: bool)
    requires login != "" && sum < 0.0
    ensures RequestForWithdrawalStrict(s, login, WithdrawBody(Models.WithdrawRequest(order, sum)), now, withdrawFails)
      == Storage.Step(StatusUnprocessableEntity, s)
  {
  }
}

=== FILE: ledger.dfy ===
/**
 * The store as a state machine: the ledger operations as one step
 * function, the invariants every step keeps, and what a whole run of steps
 * guarantees (withdrawn totals match the withdrawal log, current balances
 * stay non-negative, credited flags are never cleared).
 */
module Ledger {
  import opened Storage
  import Models

  /** One storage call, as issued by the handlers and the accrual workers. */
  datatype Op =
    | Register(login: Login, hashedPassword: string)
    | BindUid(uid: string, user: Login)
    | Upload(owner: Login, number: int, at: int)
    | Credit(creditLogin: Login, creditNumber: int, accrual: real)
    | Settle(settleNumber: int, status: string, settledAccrual: real)
    | Withdraw(payer: Login, orderNumber: int, amount: real, when: int)

  /**
   * The storage call as written.  No call removes a user or a balance row,
   * moves or renumbers an order row or clears its credited mark, or rewrites
   * the withdrawal log; at most one log entry is added.
   */
  function Apply(s: Store, op: Op): (r: Store)
    ensures s.users.Keys <= r.users.Keys && s.balances.Keys <= r.balances.Keys
    ensures FlagsKept(s, r)
    ensures s.withdrawals <= r.withdrawals && |r.withdrawals| <= |s.withdrawals| + 1
  {
    match op
    case Register(l, h) => SaveLoginPassword(s, l, h).store
    case BindUid(u, l) => SaveUID(s, u, l)
    case Upload(l, n, t) => AddOrder(s, l, n, t).store
    case Credit(l, n, a) => UpdateUserBalance(s, l, n, a)
    case Settle(n, st, a) => UpdateOrder(s, n, st, a)
    case Withdraw(l, n, a, t) => WithdrawFromUserBalance(s, l, n, a, t).store
  }

  function Run(s: Store, ops: seq<Op>): Store
    decreases |ops|
  {
    if |ops| == 0 then s else Run(Apply(s, ops[0]), ops[1..])
  }

  /** Total withdrawn by `login` according to the log. */
  function SumWithdrawn(log: seq<WithdrawalRow>, login: Login): real
  {
    if |log| == 0 then 0.0
    else SumWithdrawn(log[..|log| - 1], login) + (if log[|log| - 1].login == login then log[|log| - 1].sum else 0.0)
  }

  /**
   * The ledger invariant: every user has a balance row, order numbers are
   * unique, every log entry belongs to a user with a balance row, and each
   * user's withdrawn total is the sum of that user's log entries.
   */
  ghost predicate Valid(s: Store)
  {
    && s.users.Keys == s.balances.Keys
    && NumbersUnique(s.orders)
    && (forall i :: 0 <= i < |s.withdrawals| ==> s.withdrawals[i].login in s.balances)
    && (forall l :: l in s.balances ==> s.balances[l].withdrawn == SumWithdrawn(s.withdrawals, l))
  }

  lemma EmptyStoreValid()
    ensures Valid(EmptyStore)
  {
  }

  lemma SumWithdrawnAppend(log: seq<WithdrawalRow>, w: WithdrawalRow, login: Login)
    ensures SumWithdrawn(log + [w], login) == SumWithdrawn(log, login) + (if w.login == login then w.sum else 0.0)
  {
    assert (log + [w])[..|log|] == log;
  }

  /** Every ledger operation keeps the invariant. */
  lemma ApplyKeepsValid(s: Store, op: Op)
    requires Valid(s)
    ensures Valid(Apply(s, op))
  {
    var t := Apply(s, op);
    match op
    case Register(l, h) =>
      forall x | x in t.balances
        ensures t.balances[x].withdrawn == SumWithdrawn(t.withdrawals, x)
      {
        if x !in s.balances {
          assert x == l;
          assert forall i :: 0 <= i < |s.withdrawals| ==> s.withdrawals[i].login != l;
          SumWithdrawnAbsent(s.withdrawals, l);
        }
      }
    case BindUid(u, l) =>
    case Upload(l, n, at) =>
      AddOrderKeepsNumbersUnique(s, l, n, at);
    case Credit(l, n, a) =>
    case Settle(n, st, a) =>
      assert forall i :: 0 <= i < |t.orders| ==> t.orders[i].number == s.orders[i].number;
    case Withdraw(l, n, a, at) =>
      var r := WithdrawFromUserBalance(s, l, n, a, at);
      if r.value == Withdrawn {
        forall x | x in t.balances
          ensures t.balances[x].withdrawn == SumWithdrawn(t.withdrawals, x)
        {
          SumWithdrawnAppend(s.withdrawals, WithdrawalRow(l, n, a, at), x);
        }
      }
  }

  /** A login with no log entries has withdrawn nothing. */
  lemma {:induction false} SumWithdrawnAbsent(log: seq<WithdrawalRow>, login: Login)
    requires forall i :: 0 <= i < |log| ==> log[i].login != login
    ensures SumWithdrawn(log, login) == 0.0
  {
    if |log| > 0 {
      SumWithdrawnAbsent(log[..|log| - 1], login);
    }
  }

  /** Every run of operations from a valid store ends in a valid store. */
  lemma {:induction false} RunKeepsValid(s: Store, ops: seq<Op>)
    requires Valid(s)
    ensures Valid(Run(s, ops))
    decreases |ops|
  {
    if |ops| > 0 {
      ApplyKeepsValid(s, ops[0]);
      RunKeepsValid(Apply(s, ops[0]), ops[1..]);
    }
  }

  /** No user's current balance is negative. */
  ghost predicate NonNegativeCurrent(s: Store)
  {
    forall l :: l in s.balances ==> s.balances[l].current >= 0.0
  }

  /** Every credit in the run is non-negative, as the accrual service reports them. */
  ghost predicate NonNegativeCredits(ops: seq<Op>)
  {
    forall i :: 0 <= i < |ops| && ops[i].Credit? ==> ops[i].accrual >= 0.0
  }

  /**
   * Current balances stay non-negative along any run whose credits are
   * non-negative: a withdrawal of any amount, negative ones included, never
   * takes current below zero, because it needs current >= amount.
   */
  lemma {:induction false} RunKeepsCurrentNonNegative(s: Store, ops: seq<Op>)
    requires NonNegativeCurrent(s) && NonNegativeCredits(ops)
    ensures NonNegativeCurrent(Run(s, ops))
    decreases |ops|
  {
    if |ops| > 0 {
      var t := Apply(s, ops[0]);
      assert NonNegativeCurrent(t);
      assert NonNegativeCredits(ops[1..]) by {
        forall i | 0 <= i < |ops| - 1 ensures ops[1..][i] == ops[i + 1] { }
      }
      RunKeepsCurrentNonNegative(t, ops[1..]);
    }
  }

  /** `t` keeps every row of `s` in place with the same number, and every credited flag set. */
  ghost predicate FlagsKept(s: Store, t: Store)
  {
    && |s.orders| <= |t.orders|
    && forall i :: 0 <= i < |s.orders| ==>
         t.orders[i].number == s.orders[i].number && t.orders[i].login == s.orders[i].login
         && (s.orders[i].accrualAdded ==> t.orders[i].accrualAdded)
  }

  /** Once an order is marked credited, no sequence of operations clears the mark. */
  lemma {:induction false} RunKeepsFlags(s: Store, ops: seq<Op>)
    ensures FlagsKept(s, Run(s, ops))
    decreases |ops|
  {
    if |ops| > 0 {
      RunKeepsFlags(Apply(s, ops[0]), ops[1..]);
    }
  }

  /** Order `n` has a row, and every row with that number is marked credited. */
  ghost predicate Settled(rows: seq<OrderRow>, n: int)
  {
    && (exists i :: 0 <= i < |rows| && rows[i].number == n)
    && forall i :: 0 <= i < |rows| && rows[i].number == n ==> rows[i].accrualAdded
  }

  /** No storage call as written unsettles an order: an upload of a held number adds no row. */
  lemma ApplyKeepsSettled(s: Store, op: Op, n: int)
    requires Settled(s.orders, n)
    ensures Settled(Apply(s, op).orders, n)
  {
    var t := Apply(s, op);
    var i :| 0 <= i < |s.orders| && s.orders[i].number == n;
    match op
    case Upload(l, m, at) =>
      if m == n {
        if s.orders[i].login == l {
          assert OwnedBy(s.orders, n, l);
        } else {
          assert OwnedByOther(s.orders, n, l);
        }
      }
      assert t.orders[i] == s.orders[i];
    case Settle(m, st, a) =>
      assert t.orders[i].number == n;
    case _ =>
      assert t.orders[i] == s.orders[i];
  }

  /**
   * The storage calls as intended: a credit goes through the gate keyed on
   * the user's order (Storage.CreditOnce), and a settle marks an order
   * credited only with the status PROCESSED (Storage.UpdateOrderIntended).
   * Every other call is the one as written.
   */
  function ApplyIntended(s: Store, op: Op): (r: Store)
    ensures FlagsKept(s, r)
    ensures op.Credit? ==> r.users == s.users && r.orders == s.orders && r.withdrawals == s.withdrawals
    ensures !op.Credit? && !op.Settle? ==> r == Apply(s, op)
  {
    match op
    case Credit(l, n, a) => CreditOnce(s, l, n, a)
    case Settle(n, st, a) => UpdateOrderIntended(s, n, st, a)
    case _ => Apply(s, op)
  }

  function RunIntended(s: Store, ops: seq<Op>): Store
    decreases |ops|
  {
    if |ops| == 0 then s else RunIntended(ApplyIntended(s, ops[0]), ops[1..])
  }

  /** The intended calls keep the ledger invariant too. */
  lemma ApplyIntendedKeepsValid(s: Store, op: Op)
    requires Valid(s)
    ensures Valid(ApplyIntended(s, op))
  {
    var t := ApplyIntended(s, op);
    match op
    case Credit(l, n, a) =>
    case Settle(n, st, a) =>
      assert forall i :: 0 <= i < |t.orders| ==> t.orders[i].number == s.orders[i].number;
    case _ =>
      ApplyKeepsValid(s, op);
  }

  /** With the intended gate, a credit for a settled order changes nothing. */
  lemma SettledCreditIsNoop(s: Store, l: Login, n: int, a: real)
    requires Settled(s.orders, n)
    ensures ApplyIntended(s, Credit(l, n, a)) == s
  {
    assert !Uncredited(s.orders, n, l);
  }

  /** No intended storage call unsettles an order. */
  lemma ApplyIntendedKeepsSettled(s: Store, op: Op, n: int)
    requires Settled(s.orders, n)
    ensures Settled(ApplyIntended(s, op).orders, n)
  {
    var t := ApplyIntended(s, op);
    var i :| 0 <= i < |s.orders| && s.orders[i].number == n;
    match op
    case Credit(l, m, a) =>
    case Settle(m, st, a) =>
      assert t.orders[i].number == n;
    case _ =>
      ApplyKeepsSettled(s, op, n);
  }

  /**
   * With the intended calls, once an order is settled no later run of
   * operations credits it again: every credit for it, at any point of the
   * run, is a no-op.
   */
  lemma {:induction false} SettledNeverCreditedAgain(s: Store, ops: seq<Op>, n: int)
    requires Settled(s.orders, n)
    ensures Settled(RunIntended(s, ops).orders, n)
    ensures forall k :: 0 <= k < |ops| && ops[k].Credit? && ops[k].creditNumber == n ==>
      ApplyIntended(RunIntended(s, ops[..k]), ops[k]) == RunIntended(s, ops[..k])
    decreases |ops|
  {
    if |ops| > 0 {
      var t := ApplyIntended(s, ops[0]);
      ApplyIntendedKeepsSettled(s, ops[0], n);
      SettledNeverCreditedAgain(t, ops[1..], n);
      forall k | 0 <= k < |ops| && ops[k].Credit? && ops[k].creditNumber == n
        ensures ApplyIntended(RunIntended(s, ops[..k]), ops[k]) == RunIntended(s, ops[..k])
      {
        if k == 0 {
          assert ops[..0] == [];
          SettledCreditIsNoop(s, ops[0].creditLogin, n, ops[0].accrual);
        } else {
          assert ops[..k][0] == ops[0] && ops[..k][1..] == ops[1..][..k - 1];
          assert ops[1..][k - 1] == ops[k];
        }
      }
    }
  }

  /**
   * The intended credit and settle are still two steps: two polls of the
   * same order whose credits both run before either settle both pass the
   * gate, so alice's order 1 is credited 10 twice.  Only a poll that checks
   * and marks in one step (Storage.PollRunCreditsOnce) credits at most once.
   */
  lemma InterleavedPollsCreditTwice()
    ensures var s := Store(map["alice" := UserRow("h", NullUid)], map["alice" := Models.UserBalance(0.0, 0.0)],
                           [NewOrder("alice", 1, 0)], []);
      var ops := [Credit("alice", 1, 10.0), Credit("alice", 1, 10.0),
                  Settle(1, Processed, 10.0), Settle(1, Processed, 10.0)];
      var t := RunIntended(s, ops);
      "alice" in t.balances && t.balances["alice"].current == 20.0
  {
    var s := Store(map["alice" := UserRow("h", NullUid)], map["alice" := Models.UserBalance(0.0, 0.0)],
                   [NewOrder("alice", 1, 0)], []);
    var c1 := ApplyIntended(s, Credit("alice", 1, 10.0));
    assert Uncredited(s.orders, 1, "alice") by { assert s.orders[0].number == 1; }
    assert c1.orders == s.orders;
    var c2 := ApplyIntended(c1, Credit("alice", 1, 10.0));
    assert c2.balances["alice"].current == 20.0;
    var ops := [Credit("alice", 1, 10.0), Credit("alice", 1, 10.0),
                Settle(1, Processed, 10.0), Settle(1, Processed, 10.0)];
    var d1 := ApplyIntended(c2, Settle(1, Processed, 10.0));
    var d2 := ApplyIntended(d1, Settle(1, Processed, 10.0));
    assert RunIntended(s, ops) == RunIntended(c1, ops[1..]);
    assert ops[1..][1..] == ops[2..] && ops[2..][1..] == ops[3..] && ops[3..][1..] == [];
    assert RunIntended(c1, ops[1..]) == RunIntended(c2, ops[2..]);
    assert RunIntended(c2, ops[2..]) == RunIntended(d1, ops[3..]);
    assert RunIntended(d1, ops[3..]) == d2;
  }
}

=== FILE: middleware.dfy ===
/**
 * The decisions of the middleware in
 * cmd/gophermart/handlers/handlers_middleware.go: when to compress a
 * response, when to decompress a request, which user id a request carries,
 * and how often the next handler runs.  The byte streams themselves, the
 * logger and the clock are not modelled.
 */
module Middleware {
  import opened Common
  import Strings
  import Strconv

  /** Responses are compressed only from this request Content-Length on. */
  const MinGzipSize := 1400

  datatype Encoding = Plain | Gzipped

  /**
   * Response compression: the request must accept gzip, declare a JSON or
   * HTML content type, and declare a Content-Length of at least 1400 (an
   * absent or unparsable header reads as 0).  Creating the compressor at
   * the fixed BestSpeed level cannot fail, so that error branch is never
   * taken.
   */
  function GzipEncode(acceptEncoding: string, contentType: string, contentLength: string): (r: Encoding)
    ensures r == Gzipped <==>
      && Strings.Contains(acceptEncoding, "gzip")
      && (Strings.Contains(contentType, "application/json") || Strings.Contains(contentType, "text/html"))
      && Strconv.Atoi(contentLength).Value() >= MinGzipSize
  {
    if !Strings.Contains(acceptEncoding, "gzip") then Plain
    else if !Strings.Contains(contentType, "application/json") && !Strings.Contains(contentType, "text/html") then Plain
    else if Strconv.Atoi(contentLength).Value() < MinGzipSize then Plain
    else Gzipped
  }

  /** A Content-Length that does not parse (absent, empty, not a number) never leads to compression. */
  lemma UnparsableLengthIsPlain(acceptEncoding: string, contentType: string, contentLength: string)
    requires Strconv.Atoi(contentLength).SyntaxError?
    ensures GzipEncode(acceptEncoding, contentType, contentLength) == Plain
  {
  }

  /** An absent Content-Length header (read as "") means no compression. */
  lemma AbsentLengthIsPlain(acceptEncoding: string, contentType: string)
    ensures GzipEncode(acceptEncoding, contentType, "") == Plain
  {
  }

  datatype Decoding = PassThrough | Decompress | RejectBadRequest

  /**
   * Request decompression happens only for a Content-Encoding of exactly
   * "gzip"; a body whose gzip header is bad is answered 400.
   */
  function GzipDecode(contentEncoding: string, gzipHeaderOk: bool): (r: Decoding)
    ensures r == Decompress <==> contentEncoding == "gzip" && gzipHeaderOk
    ensures r == RejectBadRequest <==> contentEncoding == "gzip" && !gzipHeaderOk
  {
    if contentEncoding == "gzip" then
      if gzipHeaderOk then Decompress else RejectBadRequest
    else PassThrough
  }

  /** How many times the decoding middleware runs the next handler. */
  function DecodeNextCalls(d: Decoding): (calls: nat)
    ensures calls <= 1
    ensures calls == 0 <==> d == RejectBadRequest
  {
    if d == RejectBadRequest then 0 else 1
  }

  /** Any other encoding, e.g. "x-gzip" or "GZIP", passes the body through untouched. */
  lemma OnlyExactGzipDecodes(contentEncoding: string, gzipHeaderOk: bool)
    requires contentEncoding != "gzip"
    ensures GzipDecode(contentEncoding, gzipHeaderOk) == PassThrough
    ensures DecodeNextCalls(GzipDecode(contentEncoding, gzipHeaderOk)) == 1
  {
  }

  /** What reading the session cookie yields: the uid it carries, or an error. */
  datatype CookieRead = CookieUid(uid: string) | CookieError

  /** The request goes on with a User-ID (and possibly a fresh cookie set), or is answered 500. */
  datatype Authentication = Proceed(userId: string, newCookie: Option<string>) | InternalError

  /**
   * A readable, non-empty uid from the cookie becomes the User-ID; otherwise
   * the freshly generated uid is set as cookie and User-ID, and failing to
   * set the cookie is 500 without running the next handler.
   */
  function Authenticate(cookie: CookieRead, freshUid: string, setCookieOk: bool): (r: Authentication)
    ensures cookie.CookieUid? && cookie.uid != "" ==> r == Proceed(cookie.uid, None)
    ensures r.Proceed? && r.newCookie.Some? ==> r.userId == freshUid && r.newCookie.value == freshUid
    ensures (cookie.CookieError? || cookie.uid == "") && setCookieOk ==> r == Proceed(freshUid, Some(freshUid))
    ensures r == InternalError <==> (cookie.CookieError? || cookie.uid == "") && !setCookieOk
  {
    match cookie
    case CookieUid(uid) =>
      if uid != "" then Proceed(uid, None)
      else if setCookieOk then Proceed(freshUid, Some(freshUid))
      else InternalError
    case CookieError =>
      if setCookieOk then Proceed(freshUid, Some(freshUid)) else InternalError
  }

  /** With a non-empty fresh uid, every request that goes on carries a non-empty User-ID. */
  lemma UserIdNeverEmpty(cookie: CookieRead, freshUid: string, setCookieOk: bool)
    requires freshUid != ""
    ensures var r := Authenticate(cookie, freshUid, setCookieOk);
      r.Proceed? ==> r.userId != ""
  {
  }

  /**
   * The logging middleware tests the method three times in a row, once for
   * GET, once for POST and once for DELETE, and runs the next handler inside
   * each branch that matches.
   */
  function LoggingNextCalls(httpMethod: string): (calls: nat)
    ensures calls <= 1
    ensures calls == 1 <==> httpMethod == "GET" || httpMethod == "POST" || httpMethod == "DELETE"
  {
    (if httpMethod == "GET" then 1 else 0)
    + (if httpMethod == "POST" then 1 else 0)
    + (if httpMethod == "DELETE" then 1 else 0)
  }

  /** A PUT, PATCH, HEAD or OPTIONS request never reaches the handler behind the logger. */
  lemma OtherMethodsDropped()
    ensures LoggingNextCalls("PUT") == 0 && LoggingNextCalls("PATCH") == 0
    ensures LoggingNextCalls("HEAD") == 0 && LoggingNextCalls("OPTIONS") == 0
  {
  }
}

=== FILE: models.dfy ===
/**
 * The record shapes the service exchanges as JSON, and the order-number
 * check of cmd/gophermart/models/models.go.  Money is `real`; timestamps
 * are opaque integers.
 */
module Models {
  import Strconv

  /** One entry of a user's order list. */
  datatype Order = Order(number: string, status: string, accrual: real, uploadedAt: int)

  datatype UserBalance = UserBalance(current: real, withdrawn: real)

  /** Body of a withdrawal request: the order number is a string. */
  datatype WithdrawRequest = WithdrawRequest(order: string, sum: real)

  /** One entry of a user's withdrawal history. */
  datatype Withdrawal = Withdrawal(order: string, sum: real, processedAt: int)

  /** The accrual service's answer for one order; a missing accrual decodes as 0. */
  datatype AccrualResponse = AccrualResponse(order: string, status: string, accrual: real)

  /**
   * An order number is acceptable when every character is a digit (the
   * ASCII digits of Strconv.IsDigit).  The scan
   * stops at the first non-digit; no checksum is computed, and the empty
   * string is accepted.
   */
  function IsValidOrderNumber(number: string): (r: bool)
    ensures r <==> forall i :: 0 <= i < |number| ==> Strconv.IsDigit(number[i])
  {
    if |number| == 0 then true
    else if !Strconv.IsDigit(number[0]) then false
    else IsValidOrderNumber(number[1..])
  }

  /** Validity distributes over concatenation. */
  lemma {:induction false} ValidConcat(a: string, b: string)
    ensures IsValidOrderNumber(a + b) == (IsValidOrderNumber(a) && IsValidOrderNumber(b))
  {
    if |a| == 0 {
      assert a + b == b;
    } else {
      assert (a + b)[0] == a[0];
      assert (a + b)[1..] == a[1..] + b;
      ValidConcat(a[1..], b);
    }
  }

  /** The empty string passes, and so does a plain digit string such as "12345678". */
  lemma EmptyAndDigitsAccepted()
    ensures IsValidOrderNumber("")
    ensures IsValidOrderNumber("12345678")
  {
    DigitString("12345678");
  }

  /**
   * No checksum is applied: "79927398710" fails the Luhn check (its correct
   * check digit would be 3) and still passes.
   */
  lemma NoChecksum()
    ensures IsValidOrderNumber("79927398710")
  {
    DigitString("79927398710");
  }

  /** One character that is not a digit, anywhere in the string, makes it invalid. */
  lemma NonDigitRejected(s: string, i: int)
    requires 0 <= i < |s| && !Strconv.IsDigit(s[i])
    ensures !IsValidOrderNumber(s)
  {
  }

  /** A literal made only of digits passes, shown character by character. */
  lemma DigitString(s: string)
    requires forall c :: c in s ==> Strconv.IsDigit(c)
    ensures IsValidOrderNumber(s)
  {
    assert forall i :: 0 <= i < |s| ==> s[i] in s;
  }

  /**
   * The decimal rendering of an int is a valid order number exactly when the
   * int is not negative: a leading '-' is the only non-digit Itoa writes.
   */
  lemma ItoaValidIff(n: int)
    ensures IsValidOrderNumber(Strconv.Itoa(n)) <==> n >= 0
  {
    if n < 0 {
      assert Strconv.Itoa(n)[0] == '-';
    } else {
      var s := Strconv.Itoa(n);
      assert forall i :: 0 <= i < |s| ==> Strconv.IsDigit(s[i]);
    }
  }
}

=== FILE: order.dfy ===
/** The copy of the order-number check kept in cmd/gophermart/order/order.go. */
module Order {
  import Models
  import Strconv

  /**
   * Scans the characters left to right and answers false at the first one
   * that is not a digit; it agrees with the check in the models package on
   * every input.
   */
  method IsValidOrderNumber(number: string) returns (ok: bool)
    ensures ok <==> forall i :: 0 <= i < |number| ==> Strconv.IsDigit(number[i])
    ensures ok == Models.IsValidOrderNumber(number)
  {
    var i := 0;
    while i < |number|
      invariant 0 <= i <= |number|
      invariant forall j :: 0 <= j < i ==> Strconv.IsDigit(number[j])
    {
      if !Strconv.IsDigit(number[i]) {
        return false;
      }
      i := i + 1;
    }
    return true;
  }
}

=== FILE: storage.dfy ===
/**
 * The database behind the service (cmd/gophermart/storage/storage.go) as an
 * immutable value: users with their password hash and session uid, one
 * balance row per user, the orders table and the withdrawal log.  Every
 * operation is one atomic step from store to store; SQL text, connections
 * and driver failures are not part of this module (the handlers take those
 * failures as inputs).
 */
module Storage {
  import opened Common
  import Strconv
  import Models

  type Login = string

  /** The `uid` column of a user row: NULL until the user first logs in. */
  datatype UidColumn = NullUid | Uid(value: string)

  datatype UserRow = UserRow(password: string, uid: UidColumn)

  /** A row of the orders table; `accrualAdded` is the per-order "already credited" flag. */
  datatype OrderRow = OrderRow(number: int, login: Login, status: string, accrual: real, accrualAdded: bool, uploadedAt: int)

  datatype WithdrawalRow = WithdrawalRow(login: Login, orderNumber: int, sum: real, processedAt: int)

  datatype Store = Store(
    users: map<Login, UserRow>,
    balances: map<Login, Models.UserBalance>,
    orders: seq<OrderRow>,
    withdrawals: seq<WithdrawalRow>)

  /** The value an operation returns together with the store it leaves behind. */
  datatype Step<+T> = Step(value: T, store: Store)

  const EmptyStore: Store := Store(map[], map[], [], [])

  /* ---------------------------------------------------------------- users */

  /**
   * Registration runs two independent inserts, one into the users table and
   * one into the balances table, each refused when the login is already
   * there; the result is true only when both succeeded.
   */
  function SaveLoginPassword(s: Store, login: Login, hashedPassword: string): (r: Step<bool>)
    ensures r.value <==> login !in s.users && login !in s.balances
    ensures login in r.store.users && login in r.store.balances
    ensures r.store.users.Keys == s.users.Keys + {login}
    ensures r.store.balances.Keys == s.balances.Keys + {login}
    ensures forall l :: l in s.users ==> r.store.users[l] == s.users[l]
    ensures forall l :: l in s.balances ==> r.store.balances[l] == s.balances[l]
    ensures login !in s.users ==> r.store.users[login] == UserRow(hashedPassword, NullUid)
    ensures login !in s.balances ==> r.store.balances[login] == Models.UserBalance(0.0, 0.0)
    ensures r.store.orders == s.orders && r.store.withdrawals == s.withdrawals
  {
    var userInserted := login !in s.users;
    var balanceInserted := login !in s.balances;
    var users := if userInserted then s.users[login := UserRow(hashedPassword, NullUid)] else s.users;
    var balances := if balanceInserted then s.balances[login := Models.UserBalance(0.0, 0.0)] else s.balances;
    Step(userInserted && balanceInserted, s.(users := users, balances := balances))
  }

  /** The stored hash, or "" when the login is unknown. */
  function GetHashedPasswordByLogin(s: Store, login: Login): (r: string)
    ensures login in s.users ==> r == s.users[login].password
    ensures login !in s.users ==> r == ""
  {
    if login in s.users then s.users[login].password else ""
  }

  /** A fresh login gets exactly the hash it registered with; a taken login keeps its old hash. */
  lemma SaveThenGetHash(s: Store, login: Login, hashedPassword: string)
    ensures login !in s.users ==>
      GetHashedPasswordByLogin(SaveLoginPassword(s, login, hashedPassword).store, login) == hashedPassword
    ensures login in s.users ==>
      GetHashedPasswordByLogin(SaveLoginPassword(s, login, hashedPassword).store, login) == GetHashedPasswordByLogin(s, login)
  {
  }

  /** An unknown login has no stored hash. */
  lemma UnknownLoginHasNoHash(s: Store, login: Login)
    requires login !in s.users
    ensures GetHashedPasswordByLogin(s, login) == ""
  {
  }

  /** Records `uid` as the session id of `login`; an unknown login changes nothing. */
  function SaveUID(s: Store, uid: string, login: Login): (r: Store)
    ensures r.users.Keys == s.users.Keys
    ensures login in s.users ==> r.users[login] == s.users[login].(uid := Uid(uid))
    ensures forall l :: l in s.users && l != login ==> r.users[l] == s.users[l]
    ensures r.balances == s.balances && r.orders == s.orders && r.withdrawals == s.withdrawals
  {
    if login in s.users then s.(users := s.users[login := s.users[login].(uid := Uid(uid))]) else s
  }

  ghost predicate HasUid(s: Store, uid: string)
  {
    exists l :: l in s.users && s.users[l].uid == Uid(uid)
  }

  /**
   * The login whose session id is `uid`, or "" when there is none.  When
   * several users share the uid the query returns one of them, unspecified.
   */
  ghost function GetLoginByUID(s: Store, uid: string): (r: Login)
    ensures HasUid(s, uid) ==> r in s.users && s.users[r].uid == Uid(uid)
    ensures !HasUid(s, uid) ==> r == ""
  {
    if HasUid(s, uid) then
      var l :| l in s.users && s.users[l].uid == Uid(uid); l
    else ""
  }

  /** After SaveUID, looking the uid up finds the login again, provided nobody else holds that uid. */
  lemma SaveUIDThenLookup(s: Store, uid: string, login: Login)
    requires login in s.users
    requires forall l :: l in s.users && l != login ==> s.users[l].uid != Uid(uid)
    ensures GetLoginByUID(SaveUID(s, uid, login), uid) == login
  {
    var t := SaveUID(s, uid, login);
    assert t.users[login].uid == Uid(uid);
  }

  /* --------------------------------------------------------------- orders */

  /** Some row numbered `n` belongs to `login`. */
  ghost predicate OwnedBy(rows: seq<OrderRow>, n: int, login: Login)
  {
    exists i :: 0 <= i < |rows| && rows[i].number == n && rows[i].login == login
  }

  /** Some row numbered `n` belongs to a login other than `login`. */
  ghost predicate OwnedByOther(rows: seq<OrderRow>, n: int, login: Login)
  {
    exists i :: 0 <= i < |rows| && rows[i].number == n && rows[i].login != login
  }

  function NewOrder(login: Login, n: int, now: int): OrderRow
  {
    OrderRow(n, login, "NEW", 0.0, false, now)
  }

  datatype AddOrderResult = Added | AlreadyUploaded | Conflict

  /**
   * The three-way ownership decision of an upload: a number held by another
   * login is a conflict, a number this login already holds is accepted again
   * without change, and any other number becomes a new row with status NEW.
   */
  function AddOrder(s: Store, login: Login, n: int, now: int): (r: Step<AddOrderResult>)
    ensures OwnedByOther(s.orders, n, login) ==> r == Step(Conflict, s)
    ensures !OwnedByOther(s.orders, n, login) && OwnedBy(s.orders, n, login) ==> r == Step(AlreadyUploaded, s)
    ensures !OwnedByOther(s.orders, n, login) && !OwnedBy(s.orders, n, login) ==>
      r == Step(Added, s.(orders := s.orders + [NewOrder(login, n, now)]))
  {
    var other := FirstIndex(s.orders, (o: OrderRow) => o.number == n && o.login != login);
    if other >= 0 then Step(Conflict, s)
    else
      var own := FirstIndex(s.orders, (o: OrderRow) => o.number == n && o.login == login);
      if own >= 0 then Step(AlreadyUploaded, s)
      else Step(Added, s.(orders := s.orders + [NewOrder(login, n, now)]))
  }

  /** Order numbers are unique in the table, so each number has one owner. */
  ghost predicate NumbersUnique(rows: seq<OrderRow>)
  {
    forall i, j :: 0 <= i < j < |rows| ==> rows[i].number != rows[j].number
  }

  /** AddOrder keeps numbers unique, and uploading again is idempotent. */
  lemma AddOrderKeepsNumbersUnique(s: Store, login: Login, n: int, now: int)
    requires NumbersUnique(s.orders)
    ensures NumbersUnique(AddOrder(s, login, n, now).store.orders)
    ensures var t := AddOrder(s, login, n, now).store;
      AddOrder(t, login, n, now) == Step(if OwnedByOther(s.orders, n, login) then Conflict else AlreadyUploaded, t)
  {
    var r := AddOrder(s, login, n, now);
    if r.value == Added {
      var rows := r.store.orders;
      assert rows[|rows| - 1].number == n && rows[|rows| - 1].login == login;
    }
  }

  /** With unique numbers, no number is ever owned by two logins. */
  lemma UniqueNumbersHaveOneOwner(rows: seq<OrderRow>, n: int, login: Login)
    requires NumbersUnique(rows)
    requires OwnedBy(rows, n, login)
    ensures !OwnedByOther(rows, n, login)
  {
  }

  /**
   * The rows after settling every row numbered `n` with a status and an
   * accrual; `mark` says whether those rows also get the credited mark.
   */
  function SettleRows(rows: seq<OrderRow>, n: int, status: string, accrual: real, mark: bool): (r: seq<OrderRow>)
    ensures |r| == |rows|
    ensures forall i :: 0 <= i < |rows| && rows[i].number != n ==> r[i] == rows[i]
    ensures forall i :: 0 <= i < |rows| && rows[i].number == n ==>
      r[i] == rows[i].(status := status, accrual := accrual, accrualAdded := rows[i].accrualAdded || mark)
  {
    if |rows| == 0 then []
    else
      var head := if rows[0].number == n
        then rows[0].(status := status, accrual := accrual, accrualAdded := rows[0].accrualAdded || mark)
        else rows[0];
      [head] + SettleRows(rows[1..], n, status, accrual, mark)
  }

  /**
   * Sets status and accrual of the rows numbered `n` and marks them credited,
   * whatever the status; no other row and no balance changes.
   */
  function UpdateOrder(s: Store, n: int, status: string, accrual: real): (r: Store)
    ensures r.users == s.users && r.balances == s.balances && r.withdrawals == s.withdrawals
    ensures |r.orders| == |s.orders|
    ensures forall i :: 0 <= i < |s.orders| && s.orders[i].number != n ==> r.orders[i] == s.orders[i]
    ensures forall i :: 0 <= i < |s.orders| && s.orders[i].number == n ==>
      r.orders[i] == s.orders[i].(status := status, accrual := accrual, accrualAdded := true)
  {
    s.(orders := SettleRows(s.orders, n, status, accrual, true))
  }

  /** The accrual service's status once an order's points are final. */
  const Processed := "PROCESSED"

  /**
   * The settle as intended: status and accrual as reported, but the credited
   * mark only with the status PROCESSED, the one status that carries the
   * final accrual.
   */
  function UpdateOrderIntended(s: Store, n: int, status: string, accrual: real): (r: Store)
    ensures r.users == s.users && r.balances == s.balances && r.withdrawals == s.withdrawals
    ensures |r.orders| == |s.orders|
    ensures forall i :: 0 <= i < |s.orders| && s.orders[i].number != n ==> r.orders[i] == s.orders[i]
    ensures forall i :: 0 <= i < |s.orders| && s.orders[i].number == n ==>
      && r.orders[i].status == status && r.orders[i].accrual == accrual
      && r.orders[i].number == n && r.orders[i].login == s.orders[i].login
      && (r.orders[i].accrualAdded <==> s.orders[i].accrualAdded || status == Processed)
  {
    s.(orders := SettleRows(s.orders, n, status, accrual, status == Processed))
  }

  /* ------------------------------------------------------------- balances */

  /** Some order row, of any user and any number, is not yet marked credited. */
  ghost predicate AnyUncredited(rows: seq<OrderRow>)
  {
    exists i :: 0 <= i < |rows| && !rows[i].accrualAdded
  }

  /**
   * Adds the accrual to the user's current balance, exactly as the update
   * statement is written: it joins the balance row with the whole orders
   * table, so it fires whenever ANY order row is not yet marked credited.
   * The order number plays no part.
   */
  function UpdateUserBalance(s: Store, login: Login, n: int, accrual: real): (r: Store)
    ensures r.users == s.users && r.orders == s.orders && r.withdrawals == s.withdrawals
    ensures r.balances.Keys == s.balances.Keys
    ensures forall l :: l in s.balances && l != login ==> r.balances[l] == s.balances[l]
    ensures login in s.balances ==> r.balances[login].withdrawn == s.balances[login].withdrawn
    ensures login in s.balances ==>
      r.balances[login].current == s.balances[login].current + (if login in s.users && AnyUncredited(s.orders) then accrual else 0.0)
  {
    var open := FirstIndex(s.orders, (o: OrderRow) => !o.accrualAdded);
    if login in s.users && login in s.balances && open >= 0 then
      var b := s.balances[login];
      s.(balances := s.balances[login := b.(current := b.current + accrual)])
    else s
  }

  /** The credit does not depend on the order number, and is a no-op once every row is marked. */
  lemma UpdateUserBalanceIgnoresOrder(s: Store, login: Login, n: int, m: int, accrual: real)
    ensures UpdateUserBalance(s, login, n, accrual) == UpdateUserBalance(s, login, m, accrual)
    ensures !AnyUncredited(s.orders) ==> UpdateUserBalance(s, login, n, accrual) == s
  {
  }

  /** The user's order `n` exists and has not been credited. */
  ghost predicate Uncredited(rows: seq<OrderRow>, n: int, login: Login)
  {
    exists i :: 0 <= i < |rows| && rows[i].number == n && rows[i].login == login && !rows[i].accrualAdded
  }

  /**
   * The credit as its comment describes it: only when this user's order `n`
   * is not yet marked credited.
   */
  function CreditOnce(s: Store, login: Login, n: int, accrual: real): (r: Store)
    ensures r.users == s.users && r.orders == s.orders && r.withdrawals == s.withdrawals
    ensures r.balances.Keys == s.balances.Keys
    ensures forall l :: l in s.balances && l != login ==> r.balances[l] == s.balances[l]
    ensures login in s.balances ==> r.balances[login].withdrawn == s.balances[login].withdrawn
    ensures login in s.balances ==>
      r.balances[login].current == s.balances[login].current + (if login in s.users && Uncredited(s.orders, n, login) then accrual else 0.0)
  {
    var open := FirstIndex(s.orders, (o: OrderRow) => o.number == n && o.login == login && !o.accrualAdded);
    if login in s.users && login in s.balances && open >= 0 then
      var b := s.balances[login];
      s.(balances := s.balances[login := b.(current := b.current + accrual)])
    else s
  }

  /**
   * With the corrected credit, polling the same order twice credits once:
   * the second credit-then-update leaves every balance as the first left it.
   */
  lemma SettleCreditsOnce(s: Store, login: Login, n: int, status: string, accrual: real, status2: string, accrual2: real)
    ensures var once := UpdateOrder(CreditOnce(s, login, n, accrual), n, status, accrual);
      UpdateOrder(CreditOnce(once, login, n, accrual2), n, status2, accrual2).balances == once.balances
  {

  }

  /**
   * As written, re-polling an order that was already credited credits it
   * again while some other order anywhere in the table is uncredited: two
   * polls of alice's order 1 add 10 twice because bob's order 2 is still NEW.
   */
  lemma RepollCreditsTwice()
    ensures var s := Store(
        map["alice" := UserRow("h1", NullUid), "bob" := UserRow("h2", NullUid)],
        map["alice" := Models.UserBalance(0.0, 0.0), "bob" := Models.UserBalance(0.0, 0.0)],
        [NewOrder("alice", 1, 0), NewOrder("bob", 2, 0)],
        []);
      var once := UpdateOrder(UpdateUserBalance(s, "alice", 1, 10.0), 1, "PROCESSED", 10.0);
      var twice := UpdateOrder(UpdateUserBalance(once, "alice", 1, 10.0), 1, "PROCESSED", 10.0);
      once.balances["alice"].current == 10.0 && twice.balances["alice"].current == 20.0
  {

  }

  /**
   * One poll's effect on the store as intended: the user's uncredited order
   * is credited only with the status PROCESSED, and only that status marks
   * it credited.
   */
  function PollIntended(s: Store, login: Login, n: int, status: string, accrual: real): (r: Store)
    ensures r.users == s.users && r.withdrawals == s.withdrawals && r.balances.Keys == s.balances.Keys
    ensures login in s.balances ==>
      r.balances[login].current == s.balances[login].current
        + (if status == Processed && login in s.users && Uncredited(s.orders, n, login) then accrual else 0.0)
    ensures forall l :: l in s.balances && l != login ==> r.balances[l] == s.balances[l]
    ensures !(status == Processed && login in s.users && Uncredited(s.orders, n, login)) ==> r.balances == s.balances
  {
    var credited := if status == Processed then CreditOnce(s, login, n, accrual) else s;
    UpdateOrderIntended(credited, n, status, accrual)
  }

  /** A pending reply credits nothing and leaves the user's order open. */
  lemma PendingPollKeepsOrderOpen(s: Store, login: Login, n: int, pending: string, a: real)
    requires Uncredited(s.orders, n, login)
    requires pending != Processed
    ensures PollIntended(s, login, n, pending, a).balances == s.balances
    ensures Uncredited(PollIntended(s, login, n, pending, a).orders, n, login)
  {
    var t := PollIntended(s, login, n, pending, a);
    var i :| 0 <= i < |s.orders| && s.orders[i].number == n && s.orders[i].login == login && !s.orders[i].accrualAdded;
    assert t.orders[i].number == n && t.orders[i].login == login && !t.orders[i].accrualAdded;
  }

  /** A PROCESSED reply marks every row with the number credited. */
  lemma ProcessedPollClosesOrder(s: Store, login: Login, n: int, a: real)
    ensures !Uncredited(PollIntended(s, login, n, Processed, a).orders, n, login)
  {
    var c := CreditOnce(s, login, n, a);
    var u := PollIntended(s, login, n, Processed, a);
    forall j | 0 <= j < |u.orders| && u.orders[j].number == n
      ensures u.orders[j].accrualAdded
    {
      assert c.orders[j].number == n;
    }
  }

  /**
   * With the intended poll, a pending reply (any status but PROCESSED)
   * credits nothing and keeps the order open, the PROCESSED reply that
   * follows credits its accrual, and any later reply credits nothing more.
   */
  lemma PendingThenProcessedCreditsOnce(s: Store, login: Login, n: int, pending: string, a1: real,
                                        a2: real, status3: string, a3: real)
    requires login in s.users && login in s.balances
    requires Uncredited(s.orders, n, login)
    requires pending != Processed
    ensures var t := PollIntended(s, login, n, pending, a1);
      var u := PollIntended(t, login, n, Processed, a2);
      && t.balances == s.balances
      && u.balances[login].current == s.balances[login].current + a2
      && PollIntended(u, login, n, status3, a3).balances == u.balances
  {
    var t := PollIntended(s, login, n, pending, a1);
    PendingPollKeepsOrderOpen(s, login, n, pending, a1);
    var u := PollIntended(t, login, n, Processed, a2);
    ProcessedPollClosesOrder(t, login, n, a2);
  }

  /**
   * Successive intended polls of the user's order `n`, each reply applied
   * as one step that checks and marks together.
   */
  function PollRun(s: Store, login: Login, n: int, replies: seq<Models.AccrualResponse>): Store
    decreases |replies|
  {
    if |replies| == 0 then s
    else PollRun(PollIntended(s, login, n, replies[0].status, replies[0].accrual), login, n, replies[1..])
  }

  /** The accrual of the first PROCESSED reply, or 0 when none is. */
  function FirstProcessedAccrual(replies: seq<Models.AccrualResponse>): real
    decreases |replies|
  {
    if |replies| == 0 then 0.0
    else if replies[0].status == Processed then replies[0].accrual
    else FirstProcessedAccrual(replies[1..])
  }

  /** A reply other than PROCESSED neither opens nor closes the user's order. */
  lemma PendingPollKeepsOpenness(s: Store, login: Login, n: int, pending: string, a: real)
    requires pending != Processed
    ensures Uncredited(PollIntended(s, login, n, pending, a).orders, n, login) <==> Uncredited(s.orders, n, login)
  {
    var t := PollIntended(s, login, n, pending, a);
    if Uncredited(s.orders, n, login) {
      PendingPollKeepsOrderOpen(s, login, n, pending, a);
    }
    if Uncredited(t.orders, n, login) {
      var i :| 0 <= i < |t.orders| && t.orders[i].number == n && t.orders[i].login == login && !t.orders[i].accrualAdded;
      assert s.orders[i].number == n && s.orders[i].login == login && !s.orders[i].accrualAdded;
    }
  }

  /**
   * With check and mark in one step, any sequence of replies for the user's
   * order credits the accrual of the first PROCESSED reply once, if the
   * order was open, and nothing else; other users are untouched.
   */
  lemma {:induction false} PollRunCreditsOnce(s: Store, login: Login, n: int, replies: seq<Models.AccrualResponse>)
    requires login in s.users && login in s.balances
    ensures var t := PollRun(s, login, n, replies);
      && t.balances.Keys == s.balances.Keys
      && t.balances[login].current
         == s.balances[login].current + (if Uncredited(s.orders, n, login) then FirstProcessedAccrual(replies) else 0.0)
      && forall l :: l in s.balances && l != login ==> t.balances[l] == s.balances[l]
    decreases |replies|
  {
    if |replies| > 0 {
      var r := replies[0];
      var u := PollIntended(s, login, n, r.status, r.accrual);
      PollRunCreditsOnce(u, login, n, replies[1..]);
      if r.status == Processed {
        ProcessedPollClosesOrder(s, login, n, r.accrual);
      } else {
        PendingPollKeepsOpenness(s, login, n, r.status, r.accrual);
      }
    }
  }

  datatype WithdrawResult = Withdrawn | InsufficientFunds | NoBalanceRow

  /**
   * Moves `amount` from current to withdrawn and logs one entry, unless the
   * user has no balance row or the current balance is below the amount.
   */
  function WithdrawFromUserBalance(s: Store, login: Login, n: int, amount: real, now: int): (r: Step<WithdrawResult>)
    ensures login !in s.balances ==> r == Step(NoBalanceRow, s)
    ensures login in s.balances && s.balances[login].current < amount ==> r == Step(InsufficientFunds, s)
    ensures r.value == Withdrawn <==> login in s.balances && amount <= s.balances[login].current
    ensures r.value == Withdrawn ==>
      && login in r.store.balances
      && r.store.balances[login].current + r.store.balances[login].withdrawn
         == s.balances[login].current + s.balances[login].withdrawn
      && r.store.balances[login].withdrawn == s.balances[login].withdrawn + amount
      && r.store.balances[login].current >= 0.0
      && r.store.withdrawals == s.withdrawals + [WithdrawalRow(login, n, amount, now)]
      && r.store.balances.Keys == s.balances.Keys
      && (forall l :: l in s.balances && l != login ==> r.store.balances[l] == s.balances[l])
      && r.store.users == s.users && r.store.orders == s.orders
  {
    if login !in s.balances then Step(NoBalanceRow, s)
    else
      var b := s.balances[login];
      if b.current < amount then Step(InsufficientFunds, s)
      else
        var moved := Models.UserBalance(b.current - amount, b.withdrawn + amount);
        Step(Withdrawn, Store(s.users, s.balances[login := moved], s.orders, s.withdrawals + [WithdrawalRow(login, n, amount, now)]))
  }

  /* -------------------------------------------------------------- lookups */

  /** The balance row, or the lookup error when the user has none. */
  function GetUserBalance(s: Store, login: Login): (r: Result<Models.UserBalance, ()>)
    ensures r.Ok? <==> login in s.balances
    ensures r.Ok? ==> r.value == s.balances[login]
  {
    if login in s.balances then Ok(s.balances[login]) else Err(())
  }

  /** How a row is reported: the number as text and the time of the query as upload time. */
  function OrderView(row: OrderRow, now: int): Models.Order
  {
    Models.Order(Strconv.Itoa(row.number), row.status, row.accrual, now)
  }

  /** The user's orders, each reported with the time of the query as its upload time. */
  function GetOrders(s: Store, login: Login, now: int): (r: seq<Models.Order>)
    ensures |r| <= |s.orders|
    ensures forall i :: 0 <= i < |r| ==> r[i].uploadedAt == now
    ensures |r| == 0 <==> forall i :: 0 <= i < |s.orders| ==> s.orders[i].login != login
    ensures forall i :: 0 <= i < |s.orders| && s.orders[i].login == login ==> OrderView(s.orders[i], now) in r
    ensures forall k :: 0 <= k < |r| ==>
      exists i :: 0 <= i < |s.orders| && s.orders[i].login == login && r[k] == OrderView(s.orders[i], now)
  {
    var owned := Filter(s.orders, (o: OrderRow) => o.login == login);
    var r := seq(|owned|, k requires 0 <= k < |owned| => OrderView(owned[k], now));
    assert |owned| > 0 ==> owned[0] in s.orders && owned[0].login == login;
    assert forall i :: 0 <= i < |s.orders| && s.orders[i].login == login ==>
      exists k :: 0 <= k < |owned| && owned[k] == s.orders[i] && r[k] == OrderView(s.orders[i], now);
    r
  }

  function WithdrawalView(w: WithdrawalRow): Models.Withdrawal
  {
    Models.Withdrawal(Strconv.Itoa(w.orderNumber), w.sum, w.processedAt)
  }

  /**
   * The user's withdrawals, in log order; the query sorts them by time,
   * newest first, which is not modelled.
   */
  function GetUserWithdrawals(s: Store, login: Login): (r: seq<Models.Withdrawal>)
    ensures |r| <= |s.withdrawals|
    ensures |r| == 0 <==> forall i :: 0 <= i < |s.withdrawals| ==> s.withdrawals[i].login != login
    ensures forall i :: 0 <= i < |s.withdrawals| && s.withdrawals[i].login == login ==> WithdrawalView(s.withdrawals[i]) in r
    ensures forall k :: 0 <= k < |r| ==>
      exists i :: 0 <= i < |s.withdrawals| && s.withdrawals[i].login == login && r[k] == WithdrawalView(s.withdrawals[i])
  {
    var mine := Filter(s.withdrawals, (w: WithdrawalRow) => w.login == login);
    var r := seq(|mine|, k requires 0 <= k < |mine| => WithdrawalView(mine[k]));
    assert |mine| > 0 ==> mine[0] in s.withdrawals && mine[0].login == login;
    assert forall i :: 0 <= i < |s.withdrawals| && s.withdrawals[i].login == login ==>
      exists k :: 0 <= k < |mine| && mine[k] == s.withdrawals[i] && r[k] == WithdrawalView(s.withdrawals[i]);
    r
  }
}

=== FILE: strconv.dfy ===
/**
 * Go's `strconv.Atoi` and `strconv.Itoa` on a 64-bit platform, as the
 * handlers use them to turn request bodies and headers into integers and
 * order numbers back into strings.
 */
module Strconv {

  const MaxInt64: int := 0x7fff_ffff_ffff_ffff
  const MinInt64: int := -0x8000_0000_0000_0000
  const MaxUint64: int := 0xffff_ffff_ffff_ffff

  /** The byte test `'0' <= c <= '9'` that the parser applies. */
  predicate IsDigit(c: char)
  {
    '0' <= c <= '9'
  }

  predicate AllDigits(s: string)
  {
    forall i :: 0 <= i < |s| ==> IsDigit(s[i])
  }

  function DigitValue(c: char): (d: nat)
    requires IsDigit(c)
    ensures d < 10
  {
    c as int - '0' as int
  }

  function DigitChar(d: nat): (c: char)
    requires d < 10
    ensures IsDigit(c) && DigitValue(c) == d
  {
    ('0' as int + d) as char
  }

  /** The number a string of decimal digits denotes, most significant digit first. */
  function Decimal(s: string): nat
    requires AllDigits(s)
  {
    if |s| == 0 then 0 else 10 * Decimal(s[..|s| - 1]) + DigitValue(s[|s| - 1])
  }

  /** Shortest decimal rendering of a natural number. */
  function NatToDecimal(n: nat): (r: string)
    ensures |r| >= 1 && AllDigits(r)
    ensures Decimal(r) == n
    ensures r[0] == '0' ==> n == 0
  {
    if n < 10 then
      [DigitChar(n)]
    else
      var front := NatToDecimal(n / 10);
      var r := front + [DigitChar(n % 10)];
      assert r[..|r| - 1] == front;
      r
  }

  /** `strconv.Itoa`: a leading '-' for negative numbers, then the digits of the magnitude. */
  function Itoa(n: int): string
  {
    if n < 0 then "-" + NatToDecimal(-n) else NatToDecimal(n)
  }

  /** What `strconv.Atoi` reports: a value, or one of its two error kinds. */
  datatype AtoiResult = Parsed(value: int) | SyntaxError | RangeError(clamped: int)
  {
    /** The int Atoi returns next to its error: 0 for a syntax error, the nearest bound for a range error. */
    function Value(): int
    {
      match this
      case Parsed(v) => v
      case SyntaxError => 0
      case RangeError(c) => c
    }
  }

  /** Length of the longest all-digit prefix of `s`. */
  function DigitPrefix(s: string): (k: nat)
    ensures k <= |s| && AllDigits(s[..k])
    ensures k < |s| ==> !IsDigit(s[k])
  {
    if |s| == 0 || !IsDigit(s[0]) then 0
    else
      var k := 1 + DigitPrefix(s[1..]);
      assert forall i :: 1 <= i < k ==> s[..k][i] == s[1..][..k - 1][i - 1];
      k
  }

  /** `s` without its leading sign character, if it has one. */
  function Unsigned(s: string): string
  {
    if |s| > 0 && (s[0] == '-' || s[0] == '+') then s[1..] else s
  }

  /** The syntax Atoi accepts: an optional sign, then at least one ASCII digit and nothing else. */
  predicate IntSyntax(s: string)
  {
    |Unsigned(s)| > 0 && AllDigits(Unsigned(s))
  }

  /** The unbounded integer such a string denotes. */
  function SignedValue(s: string): int
    requires IntSyntax(s)
  {
    var magnitude: int := Decimal(Unsigned(s));
    if s[0] == '-' then -magnitude else magnitude
  }

  /**
   * `strconv.Atoi`: an optional sign, then at least one ASCII digit.  A
   * non-digit gives a syntax error, unless the digits before it already
   * exceeded the unsigned 64-bit range (the parser reports the overflow as it
   * meets it); a magnitude outside the int64 range gives a range error
   * carrying the nearest bound.
   */
  function Atoi(s: string): (r: AtoiResult)
    ensures |s| == 0 ==> r == SyntaxError
    ensures r.Parsed? <==> IntSyntax(s) && MinInt64 <= SignedValue(s) <= MaxInt64
    ensures r.Parsed? ==> r.value == SignedValue(s)
    ensures IntSyntax(s) && SignedValue(s) > MaxInt64 ==> r == RangeError(MaxInt64)
    ensures IntSyntax(s) && SignedValue(s) < MinInt64 ==> r == RangeError(MinInt64)
    ensures !IntSyntax(s) ==> r == SyntaxError || r.RangeError?
    ensures !IntSyntax(s) && r.RangeError? ==>
      Decimal(Unsigned(s)[..DigitPrefix(Unsigned(s))]) > MaxUint64
    ensures r.RangeError? ==> r.clamped == MinInt64 || r.clamped == MaxInt64
  {
    var negative := |s| > 0 && s[0] == '-';
    var digits := Unsigned(s);
    var k := DigitPrefix(digits);
    assert k == |digits| ==> digits[..k] == digits;
    assert k < |digits| ==> !AllDigits(digits);
    var magnitude: int := Decimal(digits[..k]);
    if |digits| == 0 then SyntaxError
    else if magnitude > MaxUint64 then RangeError(if negative then MinInt64 else MaxInt64)
    else if k < |digits| then SyntaxError
    else if !negative && magnitude > MaxInt64 then RangeError(MaxInt64)
    else if negative && magnitude > -MinInt64 then RangeError(MinInt64)
    else
      Parsed(if negative then -magnitude else magnitude)
  }

  /** Atoi reads back exactly what Itoa wrote, for every int64. */
  lemma AtoiItoa(n: int)
    requires MinInt64 <= n <= MaxInt64
    ensures Atoi(Itoa(n)) == Parsed(n)
  {
    if n < 0 {
      var d := NatToDecimal(-n);
      assert ("-" + d)[1..] == d;
      assert d[..|d|] == d;
    } else {
      var d := NatToDecimal(n);
      assert d[..|d|] == d;
    }
  }
}

=== FILE: strings.dfy ===
/** The two predicates of Go's `strings` package the service relies on. */
module Strings {

  /** `strings.HasPrefix`. */
  predicate HasPrefix(s: string, prefix: string)
  {
    |prefix| <= |s| && s[..|prefix|] == prefix
  }

  /** `sub` occurs in `s` starting at position `i`. */
  predicate OccursAt(s: string, sub: string, i: int)
  {
    0 <= i <= |s| - |sub| && s[i..i + |sub|] == sub
  }

  /**
   * `strings.Contains`: `sub` occurs somewhere in `s` (the empty string
   * occurs everywhere).  The explicit range on `i` is what lets the
   * quantifier be compiled; OccursAt narrows it further.
   */
  predicate Contains(s: string, sub: string)
  {
    exists i :: 0 <= i <= |s| && OccursAt(s, sub, i)
  }

  /** A string contains each of its prefixes. */
  lemma PrefixIsContained(s: string, prefix: string)
    requires HasPrefix(s, prefix)
    ensures Contains(s, prefix)
  {
    assert OccursAt(s, prefix, 0);
  }

  /** `HasPrefix(p + s, p)` always holds: prepending a prefix establishes it. */
  lemma PrependEstablishesPrefix(p: string, s: string)
    ensures HasPrefix(p + s, p)
  {
    assert (p + s)[..|p|] == p;
  }
}
